=== FILE: README.md ===
# Evaluation metrics of `datautils`, modelled in Dafny

This project models the three metric engines in `metrics.go` of the Go
package `datautils`. Each one takes two index-aligned sequences: model
scores (predictions) and ground-truth labels (relevancies).

- **Ranking evaluator** (module `Ranking`). `NewRankingEvaluation` ranks the
  items twice, once by prediction and once by label, highest first. The
  ranking comes from an ascending argsort followed by `reverse`.
  `CumulativeGain`, `DiscountedCumulativeGain` and
  `NormalisedDiscountedCumulativeGain` sum relevancies over the top k ranks.
- **Precision-recall curve** (module `PrecisionRecall`) and its summaries
  (module `CurveSummaries`). `NewPrecisionRecallCurve` walks the ranking from
  the highest prediction. At each step it records precision and recall. It
  stops when recall reaches 1, reverses the recorded points and appends the
  anchor point (precision 1, recall 0).
  - `AveragePrecision`, `AverageInterpolatedPrecision`,
    `InterpolatedPrecisionAt`, `RPrecision` and `PrecisionAt` read the
    curve's slices by index.
- **Confusion matrix** (module `Confusion`). `NewConfusionMatrix` thresholds
  each prediction and tallies the four cells. `Precision`, `Recall`,
  `Accuracy` and `F1` are ratios of those counts.

Module `Ordering` holds permutations, the argsort contract and reversal.
Module `Outcomes` holds the `Result` type. Module `Counting` holds facts about
counts and their ratios.

Module `Scenarios` works through data sets from `metrics_test.go` and gets
the values the tests expect. It also computes two confusion matrices.

Modelling conventions:

- **Numbers.** Scores, labels and every ratio are exact `real`s. Counts are
  `nat`.
- **Failures.** Every Go panic becomes `Err` of a `Fault`, and so does every
  division that yields NaN or an infinity.
  - `LengthMismatch` is the explicit length check.
  - `CutoffOutOfBounds` is "index k is out of bounds".
  - `IndexOutOfRange` is a slice index outside its slice.
  - `NotFinite` is a float division by zero.
- **Argsort.** gonum's `floats.Argsort` is represented by its contract
  `IsArgsort`: a permutation of the indices along which the keys never
  decrease. The constructors take that order as a parameter, so the order
  among equal scores is left open. `Ordering.Argsort` is an insertion sort
  that meets the contract. It shows that every input has such an order.
- **Discount.** The discount `math.Log2(i+2)` is a parameter with the only
  two facts the proofs use: it is 1 at rank 0, and at least 1 everywhere.
- **The curve's reference definition.** `RankedCurve` gives the curve in
  closed form. Let m be the depth of the ranking: the number of ranks down
  to and including the lowest-ranked relevant item.
  - For j < m, point j is the precision and recall of the top m-j items.
  - Point m is the anchor.
  - The thresholds are the m highest predictions, in ascending order.

  The method that follows the Go loop is proved to build exactly this curve.

- **Textbook average precision.** The reference for average precision is
  `MeanHitPrecision`, the textbook definition. It is the mean, over the
  relevant items, of the precision of the ranking cut off at each relevant
  item's rank.

Where the code's comments and the code disagree, the model follows the code:

- **Anchor position.** The comment on `PrecisionRecallCurve` says
  `Precision[0]` and `Recall[0]` are 1 and 0. The anchor is actually
  appended last (metrics.go:217-218). When some label is above 0,
  `Recall[0]` is 1. When none is, the curve is the anchor alone and the
  comment holds (metrics.go:178-184).
  - Recall never increases from index 0 to the end.
- **Interpolated precision.** The comment says it takes the maximum over
  recalls "greater than r". The code keeps recalls greater than or equal to
  r (metrics.go:298).

## Model

| member | source | states |
|---|---|---|
| `Ordering.Reverse` | metrics.go:13-17 | the swapping loop leaves at position i the element that was at position n-1-i, for every i |
| `Ordering.ReversedInvolution` | metrics.go:13-17 | reversing twice gives back the original sequence |
| `Ordering.ReversedArgsortDescends` | metrics.go:47-54 | reversing an ascending argsort gives a permutation of the items along which the keys never increase, so the highest key comes first |
| `Ordering.Argsort` | metrics.go:47 | every key sequence has an index order meeting the argsort contract: a permutation of the indices with keys non-decreasing along it |
| `Ranking.NewRankingEvaluation` | metrics.go:35-61 | fails with a length mismatch exactly when the lengths differ; otherwise keeps the labels unchanged as the relevancies, and both rankings are permutations of the items, one ranking by prediction and one by label, each highest first |
| `Ranking.CumulativeGain` | metrics.go:66-75 | fails with "index k is out of bounds" exactly when k < 1 or k > n |
| `Ranking.CumulativeGainOfAll` | metrics.go:66-75 | with no cut-off, the cumulative gain is the plain sum of all relevancies, whatever the predicted order |
| `Ranking.Max` | metrics.go:123 | the result bounds every element of the non-empty sequence from above and is one of its elements |
| `Ranking.UndiscountedTraditionalGain` | metrics.go:79-81 | the traditional relevancy hands each label through unchanged: with a discount of 1 at every rank, the discounted gain (metrics.go:93-99) of the top k is exactly their cumulative gain |
| `Ranking.DiscountLowersGain` | metrics.go:93-99 | with the traditional relevancy, non-negative labels and a discount that is at least 1, the discounted gain of the top k of any ranking lies between 0 and their undiscounted sum |
| `Ranking.DiscountedCumulativeGain` | metrics.go:107-112 | fails with "index k is out of bounds" exactly when k < 1 or k > n |
| `Ranking.DiscountedGainAtTop` | metrics.go:93-99 | the top rank is not discounted: DCG at cut-off 1 is the relevancy function applied to the label of the item predicted first |
| `Ranking.DiscountedGainBelowCumulativeGain` | metrics.go:93-111 | with the traditional relevancy and non-negative labels, 0 <= DCG(k) <= CG(k) at every valid cut-off |
| `Ranking.NormalisedDiscountedCumulativeGain` | metrics.go:119-128 | fails as out of bounds exactly when k < 1 or k > n; is exactly 1 at a valid cut-off when the largest relevancy is 0; can be non-finite only when the largest relevancy is not 0 |
| `Ranking.NoRelevantItemsIsPerfect` | metrics.go:123-126 | when every relevancy is 0, NDCG is 1 at every valid cut-off, whatever the predicted order |
| `Ranking.IdealRankingScoresOne` | metrics.go:119-128 | a predicted ranking that agrees with the perfect one down to a valid cut-off has NDCG exactly 1, except when the largest relevancy is nonzero and the ideal gain is zero, which is the non-finite 0/0 |
| `Ranking.PerfectPredictionScoresOne` | metrics.go:119-128 | on an evaluation built from non-negative labels with the traditional relevancy, a prediction that agrees with the perfect ranking down to a valid cut-off has NDCG exactly 1, whatever the discount and the tie order |
| `PrecisionRecall.PositivesCountsEachLabel` | metrics.go:174-176 | the number of relevant items counts label by label: none for no labels, and one more label adds 1 exactly when it is above 0 |
| `PrecisionRecall.DepthIsFirstFullRecall` | metrics.go:194-206 | the loop's stopping rank is the first at which every relevant item has been seen: all of them are in the top m and fewer are in any shorter prefix; it is 0 exactly when nothing is relevant |
| `PrecisionRecall.WalkRanking` | metrics.go:191-207 | the loop stops at step k = depth-1 and records, at every step t <= k, the recall and precision of the top t+1 items |
| `PrecisionRecall.NewPrecisionRecallCurve` | metrics.go:162-222 | fails on a length mismatch; otherwise builds exactly the closed-form curve of the ranking: precision and recall at each cut-off from the depth up to 1, then the anchor, with the top predictions as thresholds |
| `PrecisionRecall.RankedCurveIsValid` | metrics.go:191-221 | every constructed curve has equal-length precision and recall, one threshold fewer, the (1, 0) anchor last, every value in [0, 1], recall 1 first when there is more than the anchor, recall never increasing towards the anchor, and fewer relevant items than points |
| `PrecisionRecall.NoRelevantLabelsCurve` | metrics.go:174-185 | with no label above 0 the curve is the anchor alone: precision [1], recall [0], no thresholds |
| `PrecisionRecall.ThresholdsAreTopPredictions` | metrics.go:188-219 | the thresholds are the depth-many highest predictions in ascending order: threshold j is the prediction at the cut-off of point j, and no lower-ranked item scores higher |
| `CurveSummaries.AveragePrecision` | metrics.go:256-264 | fails with an index panic exactly when there is more than one point and recall is shorter than precision |
| `CurveSummaries.AveragePrecisionInUnit` | metrics.go:256-264 | on every valid curve average precision is defined and lies in [0, 1] |
| `CurveSummaries.AveragePrecisionOfRanking` | metrics.go:253-264 | the average precision of the constructed curve is the textbook one: the mean over relevant items of the precision at each one's rank, and 0 when nothing is relevant |
| `CurveSummaries.PerfectRankingIffAveragePrecisionOne` | metrics.go:253-264 | with at least one relevant item, average precision is 1 if and only if every relevant item is ranked above every other item |
| `CurveSummaries.InterpolatedPrecisionAt` | metrics.go:294-309 | fails exactly when a qualifying recall index has no precision; otherwise returns the largest precision among points with recall >= r, or 0 when none qualifies |
| `CurveSummaries.InterpolatedPrecisionFalls` | metrics.go:291-309 | a higher recall level never gives a higher interpolated precision |
| `CurveSummaries.InterpolatedPrecisionOfValidCurve` | metrics.go:294-309 | on a valid curve interpolated precision is defined, lies in [0, 1], is 1 at every level up to 0 and is 0 above 1 |
| `CurveSummaries.AverageInterpolatedPrecision` | metrics.go:269-275 | fails exactly when the interpolated precision fails at one of the eleven levels 0, 0.1, ..., 1 |
| `CurveSummaries.AverageInterpolatedPrecisionBounds` | metrics.go:269-275 | on a valid curve the eleven-point average is defined and lies in [1/11, 1] |
| `CurveSummaries.RPrecision` | metrics.go:277-282 | on every valid curve R-precision never fails and lies in [0, 1]: the index len-1-positives is always in range because a valid curve has more points than relevant items; on other curves it fails with an index panic exactly when that index is out of range |
| `CurveSummaries.PrecisionAt` | metrics.go:284-289 | on every valid curve P@0 reads the anchor and is 1, and every defined P@k lies in [0, 1]; it fails with an index panic exactly when k is negative or at least the number of points |
| `CurveSummaries.PrecisionAtOfRanking` | metrics.go:284-289 | on the constructed curve: precision at 0 is 1; at each k from 1 to the depth it is the fraction of relevant items among the top k; any other k is an index panic |
| `CurveSummaries.RPrecisionOfRanking` | metrics.go:277-282 | on the constructed curve R-precision never fails: it is the fraction of relevant items among the top R, where R is the number of relevant items, and 1 when R is 0 |
| `Confusion.Tally` | metrics.go:319-342 | one loop pass adds exactly one observation and keeps the margins consistent |
| `Confusion.NewConfusionMatrix` | metrics.go:315-345 | fails with an index panic exactly when there are fewer predictions than labels; otherwise each count is the number of observations in its cell, with label exactly 1 as positive and prediction >= threshold as yes, and the margins add up |
| `Confusion.Precision` | metrics.go:363-365 | non-finite exactly when nothing is predicted yes; otherwise lies in [0, 1], is 1 exactly when there is no false positive and 0 exactly when there is no true positive |
| `Confusion.Recall` | metrics.go:367-369 | non-finite exactly when there is no positive; otherwise lies in [0, 1], is 1 exactly when there is no false negative and 0 exactly when there is no true positive |
| `Confusion.Accuracy` | metrics.go:371-373 | non-finite exactly when there is no observation |
| `Confusion.AccuracyOfConsistent` | metrics.go:371-373 | for consistent counts with at least one observation, accuracy lies in [0, 1] and is 1 exactly when nothing is misclassified |
| `Confusion.AccuracyOfObservations` | metrics.go:371-373 | the accuracy of a tallied matrix is defined exactly when there is an observation, and is the fraction of observations whose thresholded prediction agrees with their label class |
| `Confusion.F1` | metrics.go:375-377 | finite exactly when there is at least one true positive |
| `Confusion.F1OfCounts` | metrics.go:375-377 | with a true positive, F1 equals 2TP / (2TP + FP + FN), lies in (0, 1] and is 1 exactly when nothing is misclassified |
| `Confusion.PrecisionOfObservations` | metrics.go:363-365 | the precision of a tallied matrix is defined exactly when some observation is predicted yes, and is the fraction of those whose label is 1 |
| `Confusion.RecallOfObservations` | metrics.go:367-369 | the recall of a tallied matrix is defined exactly when some label is 1, and is the fraction of those predicted yes |
| `Confusion.RecallFallsWithThreshold` | metrics.go:321-333 | on the same observations, raising the threshold never raises recall |
| `Scenarios.FirstCurve` | metrics_test.go:79-83 | data set 1 gives precision [2/3, 1/2, 1, 1], recall [1, 1/2, 1/2, 0] and thresholds [0.35, 0.4, 0.8] |
| `Scenarios.FirstAveragePrecision` | metrics_test.go:126 | data set 1 has average precision 5/6 |
| `Scenarios.FirstInterpolatedPrecision` | metrics_test.go:217 | on data set 1 interpolated precision is 1 at levels 0 to 0.5 and 2/3 at levels 0.6 to 1 |
| `Scenarios.FirstAverageInterpolatedPrecision` | metrics_test.go:148 | data set 1 has eleven-point average 28/33 |
| `Scenarios.FirstCutoffs` | metrics_test.go:171 | on data set 1 precision at 0, 1, 2, 3 is 1, 1, 1/2, 2/3 and at 4 is an index panic; R-precision is 1/2 |
| `Scenarios.NothingRelevant` | metrics_test.go:94-98 | data set 4 gives the anchor-only curve, average precision 0, eleven-point average 1/11 and R-precision 1 |
| `Scenarios.FirstPerfectRanking` | metrics_test.go:17 | the tied labels [0, 0, 1, 1] have several argsorts; under every one the perfect ranking puts items 2 and 3 first and items 0 and 1 last |
| `Scenarios.FirstEvaluation` | metrics_test.go:16-19 | under every argsort of the labels, data set 1 keeps its labels, ranks the items 3, 1, 2, 0 by prediction, and ranks items 2 and 3 before items 0 and 1 by label |
| `Scenarios.FirstCumulativeGain` | metrics_test.go:39 | data set 1 has cumulative gain 2 with no cut-off, under every argsort of the labels |
| `Scenarios.FirstDiscountedGain` | metrics_test.go:50 | data set 1 has DCG 1 + 1/discount(2) with no cut-off, which is 1.5 under log2, under every argsort of the labels |
| `Scenarios.FirstIdealGain` | metrics_test.go:61 | the perfect ranking of data set 1 has DCG 1 + 1/discount(1) with no cut-off, whichever tied order it uses |
| `Scenarios.FirstNormalisedGain` | metrics_test.go:61 | data set 1 has NDCG (1 + 1/discount(2)) / (1 + 1/discount(1)) with no cut-off, which is the test's 0.9197... under log2, under every argsort of the labels |
| `Scenarios.ConfusionAtHalf` | metrics.go:315-377 | five observations, one of them with label 2 (a negative), tally at threshold 0.5 to TP 2, TN 2, FP 1, FN 0; precision 2/3, recall 1, accuracy 4/5, F1 4/5 |
| `Scenarios.BothPositivesFound` | metrics.go:315-373 | scores [0.1, 0.9, 0.6, 0.3] with labels [0, 1, 1, 0] at threshold 0.5 tally to TP 2, TN 2, FP 0 and FN 0; precision, recall and accuracy are all 1 |

## Left out

- `PrecisionRecallCurve.Plot`, `ConfusionMatrix.String` and all of
  `heatmap.go`: rendering and text formatting through gonum/plot and `fmt`.
- `EmphasisedRelevancy` (`math.Pow(2, r) - 1`): it has a real exponent. The
  relevancy function is a parameter of the DCG members, as it is in Go.
- `math.Log2`: the discount of rank i is a parameter constrained only by
  being 1 at rank 0 and at least 1 everywhere. Statements that need its
  exact value (the 1.0616... and 0.9197... of the tests) are not made.
- IEEE-754 arithmetic: no rounding, NaN or infinity. A float division by zero
  is `Err(NotFinite)`, and the Go test's `math.Abs(...) > 0.000001`
  tolerance is replaced by exact equality.
- The recall levels i/10 of the eleven-point average are exact reals. Go's
  `float64(i) / 10.0` rounds.
- gonum `floats.Argsort`, `Count`, `Find`, `Max` and `Reverse` are not part
  of this model. Each is replaced by its contract. For `Argsort` the order
  among equal keys is unspecified. The scenario scores are distinct, so the
  predicted ranking is fixed. The data-set-1 labels tie, so the evaluator
  scenarios hold for every argsort of the labels and only say which items the
  perfect ranking puts first.
- Data sets 2, 3 and 5 of `metrics_test.go` are not worked through as
  scenarios. No lemma states their specific curve, average-precision or
  precision-at-k values; those values follow from the closed form
  `RankedCurve` but are not proved here.
- Go `int` counters are `nat`. They never exceed the number of observations,
  so wrap-around cannot occur.
- `Ranking.NormalisedDiscountedCumulativeGain`: when the ideal gain is zero
  but the largest relevancy is not (possible only with a relevancy function
  or labels that are not positive), the result is `Err(NotFinite)` for both
  Go outcomes, NaN and an infinity, without telling them apart.

=== FILE: confusion.dfy ===
/** The binary confusion matrix (metrics.go): predictions are thresholded
into yes/no, labels equal to 1 are the positive class, and each observation
falls into one of four cells.

Labels are compared with `== 1` here, unlike the precision-recall curve,
which treats every label above 0 as relevant. The counts are Go `int`s;
they never exceed the number of observations, so wrap-around cannot occur
for any slice Go can allocate and the model uses `nat`.
 */
module Confusion {
  import opened Outcomes
  import opened Counting

  datatype ConfusionMatrix = ConfusionMatrix(
    observations: nat,
    pos: nat,
    neg: nat,
    truePos: nat,
    trueNeg: nat,
    falsePos: nat,
    falseNeg: nat)

  /** The observation's actual class: its label is exactly 1. */
  predicate IsPositive(v: real) {
    v == 1.0
  }

  /** The thresholded prediction: yes when the score reaches the threshold. */
  predicate PredictsYes(prediction: real, threshold: real) {
    prediction >= threshold
  }

  /** The observations among the first n whose actual class is `actual` and
      whose thresholded prediction is `predicted`. */
  ghost function Cell(predictions: seq<real>, labels: seq<real>, threshold: real, n: nat, actual: bool, predicted: bool): set<nat>
    requires n <= |labels| && n <= |predictions|
  {
    set i: nat | i < n && IsPositive(labels[i]) == actual && PredictsYes(predictions[i], threshold) == predicted
  }

  /** The observations among the first n whose actual class is `actual`. */
  ghost function Actual(labels: seq<real>, n: nat, actual: bool): set<nat>
    requires n <= |labels|
  {
    set i: nat | i < n && IsPositive(labels[i]) == actual
  }

  /** The observations among the first n predicted `predicted`. */
  ghost function Predicted(predictions: seq<real>, threshold: real, n: nat, predicted: bool): set<nat>
    requires n <= |predictions|
  {
    set i: nat | i < n && PredictsYes(predictions[i], threshold) == predicted
  }

  /** Every count of `c` is the size of its cell over the first n
      observations. */
  ghost predicate TalliesPrefix(c: ConfusionMatrix, predictions: seq<real>, labels: seq<real>, threshold: real, n: nat)
    requires n <= |labels| && n <= |predictions|
  {
    && c.observations == n
    && c.pos == |Actual(labels, n, true)|
    && c.neg == |Actual(labels, n, false)|
    && c.truePos == |Cell(predictions, labels, threshold, n, true, true)|
    && c.falseNeg == |Cell(predictions, labels, threshold, n, true, false)|
    && c.falsePos == |Cell(predictions, labels, threshold, n, false, true)|
    && c.trueNeg == |Cell(predictions, labels, threshold, n, false, false)|
  }

  /** `c` is the confusion matrix of all the labelled observations. */
  ghost predicate Tallies(c: ConfusionMatrix, predictions: seq<real>, labels: seq<real>, threshold: real)
    requires |labels| <= |predictions|
  {
    TalliesPrefix(c, predictions, labels, threshold, |labels|)
  }

  /** The margins add up: positives split into true positives and false
      negatives, negatives into false positives and true negatives, and every
      observation is one or the other. */
  predicate Consistent(c: ConfusionMatrix) {
    && c.pos == c.truePos + c.falseNeg
    && c.neg == c.falsePos + c.trueNeg
    && c.observations == c.pos + c.neg
  }

  /** Observation n joins exactly the cell of its class and prediction. */
  lemma CellGrows(predictions: seq<real>, labels: seq<real>, threshold: real, n: nat, actual: bool, predicted: bool)
    requires n < |labels| && n < |predictions|
    ensures |Cell(predictions, labels, threshold, n + 1, actual, predicted)|
      == |Cell(predictions, labels, threshold, n, actual, predicted)|
         + (if IsPositive(labels[n]) == actual && PredictsYes(predictions[n], threshold) == predicted then 1 else 0)
  {
    var before := Cell(predictions, labels, threshold, n, actual, predicted);
    var member := IsPositive(labels[n]) == actual && PredictsYes(predictions[n], threshold) == predicted;
    assert Cell(predictions, labels, threshold, n + 1, actual, predicted) == if member then before + {n} else before;
    GrowsByMember(before, n, member);
  }

  /** Observation n joins exactly the class it belongs to. */
  lemma ActualGrows(labels: seq<real>, n: nat, actual: bool)
    requires n < |labels|
    ensures |Actual(labels, n + 1, actual)| == |Actual(labels, n, actual)| + (if IsPositive(labels[n]) == actual then 1 else 0)
  {
    var before := Actual(labels, n, actual);
    var member := IsPositive(labels[n]) == actual;
    assert Actual(labels, n + 1, actual) == if member then before + {n} else before;
    GrowsByMember(before, n, member);
  }

  /** Tallying observation n into a matrix of the first n gives the matrix of
      the first n+1. */
  lemma TallyStep(c: ConfusionMatrix, predictions: seq<real>, labels: seq<real>, threshold: real, n: nat)
    requires n < |labels| && n < |predictions|
    requires TalliesPrefix(c, predictions, labels, threshold, n)
    ensures TalliesPrefix(Tally(c, labels[n], predictions[n], threshold), predictions, labels, threshold, n + 1)
  {
    CellGrows(predictions, labels, threshold, n, true, true);
    CellGrows(predictions, labels, threshold, n, true, false);
    CellGrows(predictions, labels, threshold, n, false, true);
    CellGrows(predictions, labels, threshold, n, false, false);
    ActualGrows(labels, n, true);
    ActualGrows(labels, n, false);
  }

  /** One pass of the loop body: count the observation, then the cell of its
      class and thresholded prediction. */
  function Tally(c: ConfusionMatrix, v: real, prediction: real, threshold: real): (d: ConfusionMatrix)
    ensures d.observations == c.observations + 1
    ensures Consistent(c) ==> Consistent(d)
  {
    var c := c.(observations := c.observations + 1);
    if IsPositive(v) then
      var c := c.(pos := c.pos + 1);
      if PredictsYes(prediction, threshold) then c.(truePos := c.truePos + 1) else c.(falseNeg := c.falseNeg + 1)
    else
      var c := c.(neg := c.neg + 1);
      if PredictsYes(prediction, threshold) then c.(falsePos := c.falsePos + 1) else c.(trueNeg := c.trueNeg + 1)
  }

  /** The loop of `NewConfusionMatrix` over the labels. It reads the
      prediction at every label's index, so fewer predictions than labels is
      an index panic; extra predictions are ignored. */
  method NewConfusionMatrix(predictions: seq<real>, labels: seq<real>, threshold: real) returns (r: Result<ConfusionMatrix>)
    ensures r.Err? <==> |predictions| < |labels|
    ensures r.Err? ==> r.fault == IndexOutOfRange
    ensures r.Ok? ==> Tallies(r.value, predictions, labels, threshold)
    ensures r.Ok? ==> Consistent(r.value)
  {
    var matrix := ConfusionMatrix(0, 0, 0, 0, 0, 0, 0);
    var i := 0;
    while i < |labels|
      invariant i <= |labels| && i <= |predictions|
      invariant TalliesPrefix(matrix, predictions, labels, threshold, i)
      invariant Consistent(matrix)
    {
      if i >= |predictions| {
        return Err(IndexOutOfRange);
      }
      TallyStep(matrix, predictions, labels, threshold, i);
      matrix := Tally(matrix, labels[i], predictions[i], threshold);
      i := i + 1;
    }
    return Ok(matrix);
  }

  // ---------------------------------------------------------------------------
  // Rates

  /** The fraction of predicted positives that are positive; 0/0 (NaN) when
      nothing is predicted positive. */
  function Precision(c: ConfusionMatrix): (p: Result<real>)
    ensures p.Err? <==> c.truePos == 0 && c.falsePos == 0
    ensures p.Err? ==> p.fault == NotFinite
    ensures p.Ok? ==> 0.0 <= p.value <= 1.0
    ensures p.Ok? ==> (p.value == 1.0 <==> c.falsePos == 0)
    ensures p.Ok? ==> (p.value == 0.0 <==> c.truePos == 0)
  {
    var predictedYes := c.truePos + c.falsePos;
    if predictedYes == 0 then Err(NotFinite)
    else
      Fraction(c.truePos, predictedYes);
      Ok(c.truePos as real / predictedYes as real)
  }

  /** The fraction of positives predicted positive; 0/0 (NaN) when there is
      no positive. */
  function Recall(c: ConfusionMatrix): (r: Result<real>)
    ensures r.Err? <==> c.truePos == 0 && c.falseNeg == 0
    ensures r.Err? ==> r.fault == NotFinite
    ensures r.Ok? ==> 0.0 <= r.value <= 1.0
    ensures r.Ok? ==> (r.value == 1.0 <==> c.falseNeg == 0)
    ensures r.Ok? ==> (r.value == 0.0 <==> c.truePos == 0)
  {
    var actualYes := c.truePos + c.falseNeg;
    if actualYes == 0 then Err(NotFinite)
    else
      Fraction(c.truePos, actualYes);
      Ok(c.truePos as real / actualYes as real)
  }

  /** The fraction of observations classified correctly; 0/0 (NaN) when there
      is no observation. */
  function Accuracy(c: ConfusionMatrix): (a: Result<real>)
    ensures a.Err? <==> c.observations == 0
    ensures a.Err? ==> a.fault == NotFinite
  {
    if c.observations == 0 then Err(NotFinite)
    else Ok((c.trueNeg + c.truePos) as real / c.observations as real)
  }

  /** On a matrix whose margins add up, accuracy lies in [0, 1] and is 1
      exactly when no observation is misclassified. */
  lemma AccuracyOfConsistent(c: ConfusionMatrix)
    requires Consistent(c) && c.observations > 0
    ensures Accuracy(c).Ok?
    ensures 0.0 <= Accuracy(c).value <= 1.0
    ensures Accuracy(c).value == 1.0 <==> c.falsePos == 0 && c.falseNeg == 0
  {
    Fraction(c.trueNeg + c.truePos, c.observations);
  }

  /** The harmonic mean of precision and recall. Go yields NaN whenever either
      is NaN or both are 0, which happens exactly when there is no true
      positive. */
  function F1(c: ConfusionMatrix): (f: Result<real>)
    ensures f.Ok? <==> c.truePos > 0
    ensures f.Err? ==> f.fault == NotFinite
  {
    match (Precision(c), Recall(c))
    case (Ok(p), Ok(r)) => if p + r == 0.0 then Err(NotFinite) else Ok(HarmonicMean(p, r))
    case _ => Err(NotFinite)
  }

  /** `2 * ((p * r) / (p + r))`, the expression of `F1`. */
  function HarmonicMean(p: real, r: real): real
    requires p + r != 0.0
  {
    2.0 * ((p * r) / (p + r))
  }

  lemma CrossMultiply(x: real, y: real, u: real, v: real)
    requires y > 0.0 && v > 0.0 && x * v == u * y
    ensures x / y == u / v
  {
    assert x / y * (y * v) == u / v * (y * v);
  }

  lemma RatioTimesDenominator(t: real, a: real)
    requires 0.0 < t && 0.0 < a
    ensures t / a > 0.0 && t / a * a == t
  {
  }

  lemma ProductTimesSum(p: real, r: real, a: real, b: real, t: real)
    requires p * a == t && r * b == t
    ensures p * r * (a + b) == t * (p + r)
  {
    assert p * r * a == r * t && p * r * b == p * t;
  }

  /** The harmonic mean of t/a and t/b is t over the mean of a and b. */
  lemma HarmonicOfRatios(t: real, a: real, b: real)
    requires 0.0 < t <= a && t <= b
    ensures t / a + t / b > 0.0
    ensures HarmonicMean(t / a, t / b) == 2.0 * t / (a + b)
  {
    RatioTimesDenominator(t, a);
    RatioTimesDenominator(t, b);
    ProductTimesSum(t / a, t / b, a, b, t);
    CrossMultiply(t / a * (t / b), t / a + t / b, t, a + b);
  }

  /** The same in counts: precision and recall of tp true positives, fp
      false positives and fn false negatives have harmonic mean
      2tp / (2tp + fp + fn). */
  lemma HarmonicOfCounts(tp: nat, fp: nat, fn: nat)
    requires tp > 0
    ensures tp as real / (tp + fp) as real + tp as real / (tp + fn) as real > 0.0
    ensures HarmonicMean(tp as real / (tp + fp) as real, tp as real / (tp + fn) as real)
      == (2 * tp) as real / (2 * tp + fp + fn) as real
  {
    HarmonicOfRatios(tp as real, (tp + fp) as real, (tp + fn) as real);
    assert 2.0 * tp as real == (2 * tp) as real;
    assert (tp + fp) as real + (tp + fn) as real == (2 * tp + fp + fn) as real;
  }

  lemma F1Value(c: ConfusionMatrix)
    requires c.truePos > 0
    ensures F1(c) == Ok((2 * c.truePos) as real / (2 * c.truePos + c.falsePos + c.falseNeg) as real)
  {
    HarmonicOfCounts(c.truePos, c.falsePos, c.falseNeg);
  }

  /** F1 is twice the true positives over twice the true positives plus every
      misclassified observation; it lies in (0, 1] and is 1 exactly when
      nothing is misclassified. */
  lemma F1OfCounts(c: ConfusionMatrix)
    requires c.truePos > 0
    ensures F1(c).Ok?
    ensures F1(c).value == (2 * c.truePos) as real / (2 * c.truePos + c.falsePos + c.falseNeg) as real
    ensures 0.0 < F1(c).value <= 1.0
    ensures F1(c).value == 1.0 <==> c.falsePos == 0 && c.falseNeg == 0
  {
    F1Value(c);
    Fraction(2 * c.truePos, 2 * c.truePos + c.falsePos + c.falseNeg);
  }

  // ---------------------------------------------------------------------------
  // Rates in terms of the observations

  /** Predicted-yes observations are the true and the false positives. */
  lemma PredictedYesSplits(predictions: seq<real>, labels: seq<real>, threshold: real)
    requires |labels| <= |predictions|
    ensures |Predicted(predictions, threshold, |labels|, true)|
      == |Cell(predictions, labels, threshold, |labels|, true, true)|
         + |Cell(predictions, labels, threshold, |labels|, false, true)|
  {
    var n := |labels|;
    var yes := Cell(predictions, labels, threshold, n, true, true);
    var no := Cell(predictions, labels, threshold, n, false, true);
    assert Predicted(predictions, threshold, n, true) == yes + no;
    assert yes * no == {};
  }

  /** The precision of the tallied matrix is the fraction of observations
      predicted yes whose label is 1. */
  lemma PrecisionOfObservations(c: ConfusionMatrix, predictions: seq<real>, labels: seq<real>, threshold: real)
    requires |labels| <= |predictions| && Tallies(c, predictions, labels, threshold)
    ensures Precision(c).Ok? <==> |Predicted(predictions, threshold, |labels|, true)| > 0
    ensures Precision(c).Ok? ==>
      Precision(c).value
      == |Cell(predictions, labels, threshold, |labels|, true, true)| as real
         / |Predicted(predictions, threshold, |labels|, true)| as real
  {
    PredictedYesSplits(predictions, labels, threshold);
  }

  /** The recall of a consistent tallied matrix is the fraction of
      observations labelled 1 that are predicted yes. */
  lemma RecallOfObservations(c: ConfusionMatrix, predictions: seq<real>, labels: seq<real>, threshold: real)
    requires |labels| <= |predictions| && Tallies(c, predictions, labels, threshold) && Consistent(c)
    ensures Recall(c).Ok? <==> |Actual(labels, |labels|, true)| > 0
    ensures Recall(c).Ok? ==>
      Recall(c).value
      == |Cell(predictions, labels, threshold, |labels|, true, true)| as real / |Actual(labels, |labels|, true)| as real
  {
  }

  /** The observations among the first n whose thresholded prediction agrees
      with their actual class. */
  ghost function Agreeing(predictions: seq<real>, labels: seq<real>, threshold: real, n: nat): set<nat>
    requires n <= |labels| && n <= |predictions|
  {
    set i: nat | i < n && IsPositive(labels[i]) == PredictsYes(predictions[i], threshold)
  }

  /** The accuracy of a tallied matrix is defined exactly when there is an
      observation, and is the fraction of observations classified
      correctly. */
  lemma AccuracyOfObservations(c: ConfusionMatrix, predictions: seq<real>, labels: seq<real>, threshold: real)
    requires |labels| <= |predictions| && Tallies(c, predictions, labels, threshold)
    ensures Accuracy(c).Ok? <==> |labels| > 0
    ensures Accuracy(c).Ok? ==>
      Accuracy(c).value == |Agreeing(predictions, labels, threshold, |labels|)| as real / |labels| as real
  {
    var n := |labels|;
    var yes := Cell(predictions, labels, threshold, n, true, true);
    var no := Cell(predictions, labels, threshold, n, false, false);
    assert Agreeing(predictions, labels, threshold, n) == yes + no;
    assert yes * no == {};
  }

  /** Raising the threshold never adds a true positive. */
  lemma TruePositivesFallWithThreshold(predictions: seq<real>, labels: seq<real>, low: real, high: real)
    requires |labels| <= |predictions| && low <= high
    ensures |Cell(predictions, labels, high, |labels|, true, true)| <= |Cell(predictions, labels, low, |labels|, true, true)|
  {
    var n := |labels|;
    assert Cell(predictions, labels, high, n, true, true) <= Cell(predictions, labels, low, n, true, true);
    SubsetCount(Cell(predictions, labels, high, n, true, true), Cell(predictions, labels, low, n, true, true));
  }

  lemma SubsetCount(a: set<nat>, b: set<nat>)
    requires a <= b
    ensures |a| <= |b|
  {
    assert b == a + (b - a);
  }

  /** Recall never rises with the threshold: the matrices of the same
      observations at a lower and a higher threshold. */
  lemma RecallFallsWithThreshold(lowMatrix: ConfusionMatrix, highMatrix: ConfusionMatrix,
                                 predictions: seq<real>, labels: seq<real>, low: real, high: real)
    requires |labels| <= |predictions| && low <= high
    requires Tallies(lowMatrix, predictions, labels, low) && Consistent(lowMatrix)
    requires Tallies(highMatrix, predictions, labels, high) && Consistent(highMatrix)
    requires Recall(lowMatrix).Ok?
    ensures Recall(highMatrix).Ok?
    ensures Recall(highMatrix).value <= Recall(lowMatrix).value
  {
    TruePositivesFallWithThreshold(predictions, labels, low, high);
    DivideMonotone(highMatrix.truePos as real, lowMatrix.truePos as real, |Actual(labels, |labels|, true)| as real);
  }
}

=== FILE: counting.dfy ===
/** Facts about counts and their ratios, shared by the curve and the
confusion matrix: every rate in `metrics.go` is a count divided by a count,
and every count is the size of a set that grows one element at a time. */
module Counting {
  /** Adding a new element exactly when `member` holds adds 1 to the size
      exactly when `member` holds. */
  lemma GrowsByMember(before: set<nat>, x: nat, member: bool)
    requires x !in before
    ensures |if member then before + {x} else before| == |before| + (if member then 1 else 0)
  {
  }

  /** a out of b lies in [0, 1], is 1 exactly when a = b and 0 exactly when
      a = 0. */
  lemma Fraction(a: nat, b: nat)
    requires a <= b && b > 0
    ensures 0.0 <= a as real / b as real <= 1.0
    ensures a as real / b as real == 1.0 <==> a == b
    ensures a as real / b as real == 0.0 <==> a == 0
  {
    RatioIsOne(a, b);
  }

  /** A ratio of counts is 1 exactly when the counts are equal. */
  lemma RatioIsOne(a: nat, b: nat)
    requires b > 0
    ensures a as real / b as real == 1.0 <==> a == b
  {
    if a as real / b as real == 1.0 {
      assert a as real == (a as real / b as real) * b as real;
    }
  }

  /** Fewer out of the same count is a smaller ratio. */
  lemma RatioMonotone(a: nat, b: nat, d: nat)
    requires a <= b && d > 0
    ensures a as real / d as real <= b as real / d as real
  {
    DivideMonotone(a as real, b as real, d as real);
  }

  lemma DivideMonotone(a: real, b: real, d: real)
    requires a <= b && d > 0.0
    ensures a / d <= b / d
  {
    assert b / d - a / d == (b - a) / d;
  }

  lemma FractionBelowOne(a: nat, b: nat)
    requires a < b
    ensures a as real / b as real < 1.0
  {
  }
}

=== FILE: curve.dfy ===
/** Construction of the precision-recall curve (metrics.go).

`RankedCurve` defines the curve directly: rank the items by prediction,
highest first; let m be the rank just past the lowest-ranked relevant item
(the first rank at which every relevant item has been seen). Entry j of the
curve, for j < m, is the precision and recall of the top m-j items; entry m
is the anchor (precision 1, recall 0). `NewPrecisionRecallCurve` is the Go
loop, which walks the ranking until recall reaches 1, truncates, reverses and
appends the anchor; it is proved to build exactly `RankedCurve`.
 */
module PrecisionRecall {
  import opened Outcomes
  import opened Ordering
  import opened Counting

  /** Precision and recall points ordered from the deepest cut-off up to the
      anchor, the scores at which each cut-off is taken, and the number of
      relevant items. */
  datatype Curve = Curve(
    precision: seq<real>,
    recall: seq<real>,
    thresholds: seq<real>,
    positives: nat)

  /** Indices of the relevant items: labels strictly above 0. */
  function RelevantSet(labels: seq<real>): set<nat> {
    set i: nat | i < |labels| && labels[i] > 0.0
  }

  /** `floats.Count` of the labels above 0. */
  function Positives(labels: seq<real>): nat {
    |RelevantSet(labels)|
  }

  /** Counting label by label: no labels count 0, and one more label adds 1
      exactly when it is above 0. */
  lemma PositivesCountsEachLabel(labels: seq<real>, x: real)
    ensures Positives([]) == 0
    ensures Positives(labels + [x]) == Positives(labels) + (if x > 0.0 then 1 else 0)
  {
    assert RelevantSet([]) == {};
    var longer := labels + [x];
    assert RelevantSet(longer) == if x > 0.0 then RelevantSet(labels) + {|labels|} else RelevantSet(labels) by {
      forall i: nat | i < |labels|
        ensures longer[i] == labels[i]
      {
      }
    }
    GrowsByMember(RelevantSet(labels), |labels|, x > 0.0);
  }

  /** Number of relevant items among the first j entries of `ranking`. */
  function HitsAt(labels: seq<real>, ranking: seq<nat>, j: nat): (h: nat)
    requires j <= |ranking| && IndicesIn(ranking, |labels|)
    ensures h <= j
  {
    if j == 0 then 0
    else HitsAt(labels, ranking, j - 1) + (if labels[ranking[j - 1]] > 0.0 then 1 else 0)
  }

  /** Number of ranks down to and including the lowest-ranked relevant item;
      0 when no item is relevant. */
  function Depth(labels: seq<real>, ranking: seq<nat>): (m: nat)
    requires IndicesIn(ranking, |labels|)
    ensures m <= |ranking|
    ensures m > 0 ==> labels[ranking[m - 1]] > 0.0
    ensures forall j :: m <= j < |ranking| ==> labels[ranking[j]] <= 0.0
  {
    if |ranking| == 0 then 0
    else if labels[ranking[|ranking| - 1]] > 0.0 then |ranking|
    else Depth(labels, ranking[..|ranking| - 1])
  }

  /** The set of items in the first j entries of `ranking`. */
  ghost function TopSet(ranking: seq<nat>, j: nat): set<nat>
    requires j <= |ranking|
  {
    set t | 0 <= t < j :: ranking[t]
  }

  /** The first j entries of a permutation are the first j-1 plus a new one. */
  lemma TopSetGrows(ranking: seq<nat>, n: nat, j: nat)
    requires IsPermutation(ranking, n) && 0 < j <= n
    ensures TopSet(ranking, j) == TopSet(ranking, j - 1) + {ranking[j - 1]}
    ensures ranking[j - 1] !in TopSet(ranking, j - 1)
  {
    assert forall t :: 0 <= t < j - 1 ==> ranking[t] != ranking[j - 1];
  }

  /** Rank j adds one relevant item to the top j-1 exactly when its label is
      above 0. */
  lemma TopRelevantGrows(labels: seq<real>, ranking: seq<nat>, j: nat)
    requires IsPermutation(ranking, |labels|) && 0 < j <= |ranking|
    ensures |TopSet(ranking, j) * RelevantSet(labels)|
      == |TopSet(ranking, j - 1) * RelevantSet(labels)| + (if labels[ranking[j - 1]] > 0.0 then 1 else 0)
  {
    TopSetGrows(ranking, |labels|, j);
    var before := TopSet(ranking, j - 1) * RelevantSet(labels);
    var x := ranking[j - 1];
    var member := x in RelevantSet(labels);
    assert TopSet(ranking, j) * RelevantSet(labels) == if member then before + {x} else before;
    GrowsByMember(before, x, member);
  }

  lemma {:induction false} HitsCountsTopSet(labels: seq<real>, ranking: seq<nat>, j: nat)
    requires IsPermutation(ranking, |labels|) && j <= |ranking|
    ensures HitsAt(labels, ranking, j) == |TopSet(ranking, j) * RelevantSet(labels)|
  {
    if j > 0 {
      HitsCountsTopSet(labels, ranking, j - 1);
      TopRelevantGrows(labels, ranking, j);
    } else {
      assert TopSet(ranking, 0) == {};
    }
  }

  /** Walking a whole permutation meets every relevant item. */
  lemma HitsOfAll(labels: seq<real>, ranking: seq<nat>)
    requires IsPermutation(ranking, |labels|)
    ensures HitsAt(labels, ranking, |labels|) == Positives(labels)
  {
    HitsCountsTopSet(labels, ranking, |labels|);
    var rel := RelevantSet(labels);
    forall i | i in rel
      ensures i in TopSet(ranking, |labels|)
    {
      assert i in ranking;
      var t :| 0 <= t < |ranking| && ranking[t] == i;
    }
    assert TopSet(ranking, |labels|) * rel == rel;
  }

  lemma {:induction false} HitsMonotone(labels: seq<real>, ranking: seq<nat>, i: nat, j: nat)
    requires i <= j <= |ranking| && IndicesIn(ranking, |labels|)
    ensures HitsAt(labels, ranking, i) <= HitsAt(labels, ranking, j)
    decreases j
  {
    if i < j {
      HitsMonotone(labels, ranking, i, j - 1);
    }
  }

  lemma {:induction false} HitsFlatPastDepth(labels: seq<real>, ranking: seq<nat>, j: nat)
    requires IndicesIn(ranking, |labels|) && Depth(labels, ranking) <= j <= |ranking|
    ensures HitsAt(labels, ranking, j) == HitsAt(labels, ranking, Depth(labels, ranking))
    decreases j
  {
    if j > Depth(labels, ranking) {
      HitsFlatPastDepth(labels, ranking, j - 1);
    }
  }

  /** The cut-off m is exactly the first rank at which every relevant item
      has been met: all of them are within the top m, and fewer are within
      any shorter prefix. */
  lemma DepthIsFirstFullRecall(labels: seq<real>, ranking: seq<nat>)
    requires IsPermutation(ranking, |labels|)
    ensures HitsAt(labels, ranking, Depth(labels, ranking)) == Positives(labels)
    ensures forall j :: 0 <= j < Depth(labels, ranking) ==> HitsAt(labels, ranking, j) < Positives(labels)
    ensures Positives(labels) <= Depth(labels, ranking)
    ensures Depth(labels, ranking) == 0 <==> Positives(labels) == 0
  {
    var m := Depth(labels, ranking);
    HitsOfAll(labels, ranking);
    HitsFlatPastDepth(labels, ranking, |labels|);
    forall j | 0 <= j < m
      ensures HitsAt(labels, ranking, j) < Positives(labels)
    {
      HitsMonotone(labels, ranking, j, m - 1);
    }
  }

  /** A sequence whose entry j is entry |s|-1-j of `s` is its reversal. */
  lemma ReversedMatches(walked: seq<real>, points: seq<real>)
    requires |walked| == |points|
    requires forall j :: 0 <= j < |points| ==> points[j] == walked[|points| - 1 - j]
    ensures Reversed(walked) == points
  {
  }

  /** Precision of the top j items of the ranking. */
  function TopPrecision(labels: seq<real>, ranking: seq<nat>, j: nat): real
    requires 0 < j <= |ranking| && IndicesIn(ranking, |labels|)
  {
    HitsAt(labels, ranking, j) as real / j as real
  }

  /** Recall of the top j items of the ranking. */
  function TopRecall(labels: seq<real>, ranking: seq<nat>, j: nat, positives: nat): real
    requires j <= |ranking| && IndicesIn(ranking, |labels|) && positives > 0
  {
    HitsAt(labels, ranking, j) as real / positives as real
  }

  /** Precision of the top m-j items at point j < m. */
  function PrecisionPrefix(labels: seq<real>, ranking: seq<nat>, m: nat): (p: seq<real>)
    requires m <= |ranking| && IndicesIn(ranking, |labels|)
  {
    seq(m, j requires 0 <= j < m => TopPrecision(labels, ranking, m - j))
  }

  /** Recall of the top m-j items at point j < m. */
  function RecallPrefix(labels: seq<real>, ranking: seq<nat>, m: nat, positives: nat): (r: seq<real>)
    requires m <= |ranking| && IndicesIn(ranking, |labels|)
    requires m > 0 ==> positives > 0
  {
    seq(m, j requires 0 <= j < m => TopRecall(labels, ranking, m - j, positives))
  }

  /** The precision points followed by the anchor's precision 1. */
  function PrecisionPoints(labels: seq<real>, ranking: seq<nat>, m: nat): (p: seq<real>)
    requires m <= |ranking| && IndicesIn(ranking, |labels|)
  {
    PrecisionPrefix(labels, ranking, m) + [1.0]
  }

  /** The recall points followed by the anchor's recall 0. */
  function RecallPoints(labels: seq<real>, ranking: seq<nat>, m: nat, positives: nat): (r: seq<real>)
    requires m <= |ranking| && IndicesIn(ranking, |labels|)
    requires m > 0 ==> positives > 0
  {
    RecallPrefix(labels, ranking, m, positives) + [0.0]
  }

  /** The m highest predictions in ascending order: the last m entries of the
      predictions sorted along `order`. */
  function TopThresholds(predictions: seq<real>, order: seq<nat>, m: nat): (t: seq<real>)
    requires m <= |order| && IndicesIn(order, |predictions|)
  {
    seq(m, j requires 0 <= j < m => predictions[order[|order| - m + j]])
  }

  /** The keys listed along `order`: what `floats.Argsort` leaves in the
      slice it sorts. */
  function SortedAlong(keys: seq<real>, order: seq<nat>): (s: seq<real>)
    requires IndicesIn(order, |keys|)
    ensures |s| == |order| && forall j :: 0 <= j < |order| ==> s[j] == keys[order[j]]
    ensures AscendingAlong(keys, order) ==> forall i, j :: 0 <= i < j < |s| ==> s[i] <= s[j]
  {
    seq(|order|, j requires 0 <= j < |order| => keys[order[j]])
  }

  lemma SortedSuffixIsTop(predictions: seq<real>, order: seq<nat>, m: nat)
    requires m <= |order| && IndicesIn(order, |predictions|)
    ensures SortedAlong(predictions, order)[|order| - m..] == TopThresholds(predictions, order, m)
  {
  }

  /** The curve as defined from the ranking, given the ascending argsort
      `order` of the predictions. */
  function RankedCurve(predictions: seq<real>, labels: seq<real>, order: seq<nat>): Result<Curve>
    requires IsArgsort(predictions, order)
  {
    if |predictions| != |labels| then Err(LengthMismatch)
    else
      ReversedPermutation(order, |labels|);
      var ranking := Reversed(order);
      DepthIsFirstFullRecall(labels, ranking);
      var m := Depth(labels, ranking);
      var positives := Positives(labels);
      Ok(Curve(
        PrecisionPoints(labels, ranking, m),
        RecallPoints(labels, ranking, m, positives),
        TopThresholds(predictions, order, m),
        positives))
  }

  lemma RankedCurveUnfolds(predictions: seq<real>, labels: seq<real>, order: seq<nat>)
    requires IsArgsort(predictions, order) && |predictions| == |labels|
    ensures IndicesIn(Reversed(order), |labels|)
    ensures Depth(labels, Reversed(order)) > 0 ==> Positives(labels) > 0
    ensures RankedCurve(predictions, labels, order) == Ok(Curve(
      PrecisionPoints(labels, Reversed(order), Depth(labels, Reversed(order))),
      RecallPoints(labels, Reversed(order), Depth(labels, Reversed(order)), Positives(labels)),
      TopThresholds(predictions, order, Depth(labels, Reversed(order))),
      Positives(labels)))
  {
    ReversedPermutation(order, |labels|);
    DepthIsFirstFullRecall(labels, Reversed(order));
  }

  /** With no point before the anchor the curve is the anchor alone. */
  lemma AnchorOnly(predictions: seq<real>, labels: seq<real>, order: seq<nat>, ranking: seq<nat>)
    requires IndicesIn(ranking, |labels|) && IndicesIn(order, |predictions|)
    ensures PrecisionPoints(labels, ranking, 0) == [1.0]
    ensures RecallPoints(labels, ranking, 0, 0) == [0.0]
    ensures TopThresholds(predictions, order, 0) == []
  {
    assert seq(0, j requires 0 <= j < 0 => 0.0) == [];
  }

  /** Reversing the precisions recorded by the walk, top rank first, gives
      the precision points of the curve, deepest cut-off first. */
  lemma ReversedPrecisionWalk(labels: seq<real>, ranking: seq<nat>, m: nat, walked: seq<real>)
    requires m <= |ranking| && IndicesIn(ranking, |labels|) && |walked| == m
    requires forall t :: 0 <= t < m ==> walked[t] == TopPrecision(labels, ranking, t + 1)
    ensures Reversed(walked) == PrecisionPrefix(labels, ranking, m)
  {
    var points := PrecisionPrefix(labels, ranking, m);
    forall j | 0 <= j < m
      ensures points[j] == walked[m - 1 - j]
    {
      assert walked[m - 1 - j] == TopPrecision(labels, ranking, m - j);
    }
    ReversedMatches(walked, points);
  }

  /** The same for the recalls. */
  lemma ReversedRecallWalk(labels: seq<real>, ranking: seq<nat>, m: nat, positives: nat, walked: seq<real>)
    requires m <= |ranking| && IndicesIn(ranking, |labels|) && positives > 0 && |walked| == m
    requires forall t :: 0 <= t < m ==> walked[t] == TopRecall(labels, ranking, t + 1, positives)
    ensures Reversed(walked) == RecallPrefix(labels, ranking, m, positives)
  {
    var points := RecallPrefix(labels, ranking, m, positives);
    forall j | 0 <= j < m
      ensures points[j] == walked[m - 1 - j]
    {
      assert walked[m - 1 - j] == TopRecall(labels, ranking, m - j, positives);
    }
    ReversedMatches(walked, points);
  }

  /** The ranking facts the walk relies on, which `DepthIsFirstFullRecall`
      proves for every permutation: all relevant items lie within the first
      Depth ranks, and fewer lie within any shorter prefix. */
  ghost predicate RecallFirstFullAtDepth(labels: seq<real>, ranking: seq<nat>, positives: nat) {
    && IndicesIn(ranking, |labels|)
    && HitsAt(labels, ranking, Depth(labels, ranking)) == positives
    && forall j :: 0 <= j < Depth(labels, ranking) ==> HitsAt(labels, ranking, j) < positives
  }

  /** One step of the walk: having met `hits` relevant items in the top k+1,
      recall is 1 exactly when k+1 is the depth. */
  lemma WalkStep(labels: seq<real>, ranking: seq<nat>, positives: nat, k: nat, hits: nat)
    requires positives > 0 && RecallFirstFullAtDepth(labels, ranking, positives)
    requires k < Depth(labels, ranking)
    requires hits == HitsAt(labels, ranking, k + 1)
    ensures hits as real / positives as real == TopRecall(labels, ranking, k + 1, positives)
    ensures hits as real / (k + 1) as real == TopPrecision(labels, ranking, k + 1)
    ensures hits as real / positives as real == 1.0 <==> k + 1 == Depth(labels, ranking)
  {
    RatioIsOne(hits, positives);
  }

  /** The loop of the Go construction: walk the ranking from the highest
      prediction, recording at step k the recall and precision of the top k+1
      items, and stop at the first step whose recall is 1, which is the step
      that meets the lowest-ranked relevant item. */
  method WalkRanking(labels: seq<real>, order: seq<nat>, positives: nat)
    returns (precision: seq<real>, recall: seq<real>, k: nat)
    requires |order| == |labels| && IndicesIn(order, |labels|) && positives > 0
    requires RecallFirstFullAtDepth(labels, Reversed(order), positives)
    ensures k + 1 == Depth(labels, Reversed(order))
    ensures |precision| == |recall| == |labels|
    ensures forall t :: 0 <= t <= k ==> recall[t] == TopRecall(labels, Reversed(order), t + 1, positives)
    ensures forall t :: 0 <= t <= k ==> precision[t] == TopPrecision(labels, Reversed(order), t + 1)
  {
    var n := |labels|;
    ghost var ranking := Reversed(order);
    ghost var m := Depth(labels, ranking);
    recall := seq(n, _ => 0.0);
    precision := seq(n, _ => 0.0);
    var hits := 0;
    k := 0;
    var i := n - 1;
    while i >= 0
      invariant 0 <= k < m
      invariant i == n - 1 - k
      invariant |recall| == n && |precision| == n
      invariant hits == HitsAt(labels, ranking, k)
      invariant forall t :: 0 <= t < k ==> recall[t] == TopRecall(labels, ranking, t + 1, positives)
      invariant forall t :: 0 <= t < k ==> precision[t] == TopPrecision(labels, ranking, t + 1)
    {
      assert ranking[k] == order[i];
      if labels[order[i]] > 0.0 {
        hits := hits + 1;
      }
      WalkStep(labels, ranking, positives, k, hits);
      recall := recall[k := hits as real / positives as real];
      precision := precision[k := hits as real / (k + 1) as real];
      if recall[k] == 1.0 {
        break;
      }
      k := k + 1;
      i := i - 1;
    }
  }

  /** The Go construction: unless the lengths differ or nothing is relevant,
      walk the ranking, truncate the recorded points where recall reached 1,
      reverse them and append the (precision 1, recall 0) anchor. */
  method NewPrecisionRecallCurve(predictions: seq<real>, labels: seq<real>, order: seq<nat>)
    returns (c: Result<Curve>)
    requires IsArgsort(predictions, order)
    ensures c == RankedCurve(predictions, labels, order)
  {
    if |predictions| != |labels| {
      return Err(LengthMismatch);
    }
    var n := |predictions|;
    var positives := Positives(labels);
    ReversedPermutation(order, n);
    ghost var ranking := Reversed(order);
    DepthIsFirstFullRecall(labels, ranking);
    ghost var m := Depth(labels, ranking);
    if positives == 0 {
      AnchorOnly(predictions, labels, order, ranking);
      return Ok(Curve([1.0], [0.0], [], positives));
    }

    var thresholds := SortedAlong(predictions, order);
    var precision, recall, k := WalkRanking(labels, order, positives);
    precision := precision[..k + 1];
    recall := recall[..k + 1];
    ReversedPrecisionWalk(labels, ranking, m, precision);
    ReversedRecallWalk(labels, ranking, m, positives, recall);
    precision := Reverse(precision);
    recall := Reverse(recall);
    SortedSuffixIsTop(predictions, order, m);
    RankedCurveUnfolds(predictions, labels, order);
    c := Ok(Curve(precision + [1.0], recall + [0.0], thresholds[n - k - 1..], positives));
  }

  /** What every curve the constructor returns satisfies. */
  ghost predicate ValidCurve(c: Curve) {
    && |c.precision| == |c.recall| == |c.thresholds| + 1
    && c.precision[|c.precision| - 1] == 1.0
    && c.recall[|c.recall| - 1] == 0.0
    && (forall i :: 0 <= i < |c.precision| ==> 0.0 <= c.precision[i] <= 1.0)
    && (forall i :: 0 <= i < |c.recall| ==> 0.0 <= c.recall[i] <= 1.0)
    && (forall i, j :: 0 <= i <= j < |c.recall| ==> c.recall[j] <= c.recall[i])
    && (|c.recall| > 1 ==> c.recall[0] == 1.0)
    && c.positives < |c.precision|
    && (c.positives == 0 <==> |c.precision| == 1)
  }

  /** Every precision point lies in [0, 1]. */
  lemma PrecisionPointsInUnit(labels: seq<real>, ranking: seq<nat>, m: nat)
    requires m <= |ranking| && IndicesIn(ranking, |labels|)
    ensures forall i :: 0 <= i < |PrecisionPoints(labels, ranking, m)| ==>
      0.0 <= PrecisionPoints(labels, ranking, m)[i] <= 1.0
  {
    var p := PrecisionPoints(labels, ranking, m);
    forall i | 0 <= i < |p|
      ensures 0.0 <= p[i] <= 1.0
    {
      if i < m {
        assert p[i] == TopPrecision(labels, ranking, m - i);
        Fraction(HitsAt(labels, ranking, m - i), m - i);
      }
    }
  }

  /** With m the depth, every recall point lies in [0, 1], the first is 1
      when there is more than the anchor, and recall never increases from
      one point to the next. */
  lemma RecallPointsDescend(labels: seq<real>, ranking: seq<nat>, m: nat, positives: nat)
    requires m <= |ranking| && IndicesIn(ranking, |labels|) && positives > 0
    requires HitsAt(labels, ranking, m) == positives
    ensures var r := RecallPoints(labels, ranking, m, positives);
      && (forall i :: 0 <= i < |r| ==> 0.0 <= r[i] <= 1.0)
      && (forall i, j :: 0 <= i <= j < |r| ==> r[j] <= r[i])
      && (m > 0 ==> r[0] == 1.0)
  {
    var r := RecallPoints(labels, ranking, m, positives);
    forall i | 0 <= i < m
      ensures r[i] == HitsAt(labels, ranking, m - i) as real / positives as real
      ensures 0.0 <= r[i] <= 1.0
    {
      assert r[i] == TopRecall(labels, ranking, m - i, positives);
      HitsMonotone(labels, ranking, m - i, m);
      Fraction(HitsAt(labels, ranking, m - i), positives);
    }
    assert r[m] == 0.0;
    forall i, j | 0 <= i <= j < |r|
      ensures r[j] <= r[i]
    {
      if j < m {
        HitsMonotone(labels, ranking, m - j, m - i);
        RatioMonotone(HitsAt(labels, ranking, m - j), HitsAt(labels, ranking, m - i), positives);
      }
    }
    if m > 0 {
      RatioIsOne(HitsAt(labels, ranking, m), positives);
    }
  }

  /** Every constructed curve is valid: equal lengths with one threshold
      fewer, the anchor last, all values in [0, 1], recall 1 first and never
      increasing towards the anchor, and fewer relevant items than points. */
  lemma RankedCurveIsValid(predictions: seq<real>, labels: seq<real>, order: seq<nat>)
    requires IsArgsort(predictions, order) && |predictions| == |labels|
    ensures RankedCurve(predictions, labels, order).Ok?
    ensures ValidCurve(RankedCurve(predictions, labels, order).value)
  {
    ReversedPermutation(order, |labels|);
    var ranking := Reversed(order);
    DepthIsFirstFullRecall(labels, ranking);
    var m := Depth(labels, ranking);
    var positives := Positives(labels);
    PrecisionPointsInUnit(labels, ranking, m);
    if positives > 0 {
      RecallPointsDescend(labels, ranking, m, positives);
    } else {
      AnchorOnly(predictions, labels, order, ranking);
    }
  }

  /** With no relevant label the curve is the single anchor point. */
  lemma NoRelevantLabelsCurve(predictions: seq<real>, labels: seq<real>, order: seq<nat>)
    requires IsArgsort(predictions, order) && |predictions| == |labels|
    requires forall i :: 0 <= i < |labels| ==> labels[i] <= 0.0
    ensures RankedCurve(predictions, labels, order) == Ok(Curve([1.0], [0.0], [], 0))
  {
    ReversedPermutation(order, |labels|);
    DepthIsFirstFullRecall(labels, Reversed(order));
    assert RelevantSet(labels) == {};
    AnchorOnly(predictions, labels, order, Reversed(order));
  }

  /** The top m thresholds ascend, threshold j is the prediction at rank
      m-1-j, and no prediction ranked at m or below exceeds any of them. */
  lemma TopThresholdsAscend(predictions: seq<real>, order: seq<nat>, m: nat)
    requires IsArgsort(predictions, order) && m <= |order|
    ensures IndicesIn(Reversed(order), |predictions|)
    ensures var t := TopThresholds(predictions, order, m);
      && (forall i, j :: 0 <= i <= j < m ==> t[i] <= t[j])
      && (forall j :: 0 <= j < m ==> t[j] == predictions[Reversed(order)[m - 1 - j]])
      && (forall r, j :: m <= r < |order| && 0 <= j < m ==> predictions[Reversed(order)[r]] <= t[j])
  {
    ReversedPermutation(order, |predictions|);
    var n := |order|;
    var t := TopThresholds(predictions, order, m);
    forall j | 0 <= j < m
      ensures t[j] == predictions[Reversed(order)[m - 1 - j]]
    {
      assert Reversed(order)[m - 1 - j] == order[n - m + j];
    }
    forall r, j | m <= r < n && 0 <= j < m
      ensures predictions[Reversed(order)[r]] <= t[j]
    {
      assert Reversed(order)[r] == order[n - 1 - r];
    }
  }

  /** The thresholds are the highest predictions, in ascending order:
      threshold j is the prediction of the item at rank m-1-j (the cut-off of
      curve point j), and no item ranked below the cut-off scores higher. */
  lemma ThresholdsAreTopPredictions(predictions: seq<real>, labels: seq<real>, order: seq<nat>)
    requires IsArgsort(predictions, order) && |predictions| == |labels|
    ensures RankedCurve(predictions, labels, order).Ok?
    ensures var t := RankedCurve(predictions, labels, order).value.thresholds;
      && |t| == Depth(labels, Reversed(order))
      && (forall i, j :: 0 <= i <= j < |t| ==> t[i] <= t[j])
      && (forall j :: 0 <= j < |t| ==> t[j] == predictions[Reversed(order)[|t| - 1 - j]])
      && (forall r, j :: |t| <= r < |predictions| && 0 <= j < |t| ==> predictions[Reversed(order)[r]] <= t[j])
  {
    RankedCurveUnfolds(predictions, labels, order);
    TopThresholdsAscend(predictions, order, Depth(labels, Reversed(order)));
  }
}

=== FILE: ordering.dfy ===
/** Index orderings: permutations, the contract of an ascending argsort, and
reversal.

gonum's `floats.Argsort` is not part of this model; it is specified by its
contract `IsArgsort` (a permutation of the indices along which the keys never
decrease) and the metric constructors take its result as a parameter, so no
particular order among equal keys is assumed. `Argsort` below is one
implementation meeting the contract, showing that the contract can always be
met.
 */
module Ordering {

  /** Every entry of `ind` is an index into a sequence of length `n`. */
  ghost predicate IndicesIn(ind: seq<nat>, n: nat) {
    forall i :: 0 <= i < |ind| ==> ind[i] < n
  }

  /** `p` lists each of 0, ..., n-1 exactly once. */
  ghost predicate IsPermutation(p: seq<nat>, n: nat) {
    && |p| == n
    && IndicesIn(p, n)
    && (forall i, j :: 0 <= i < j < n ==> p[i] != p[j])
    && (forall v :: 0 <= v < n ==> v in p)
  }

  /** Keys never decrease along `ind`. */
  ghost predicate AscendingAlong(keys: seq<real>, ind: seq<nat>)
    requires IndicesIn(ind, |keys|)
  {
    forall i, j :: 0 <= i < j < |ind| ==> keys[ind[i]] <= keys[ind[j]]
  }

  /** Keys never increase along `ind`. */
  ghost predicate DescendingAlong(keys: seq<real>, ind: seq<nat>)
    requires IndicesIn(ind, |keys|)
  {
    forall i, j :: 0 <= i < j < |ind| ==> keys[ind[i]] >= keys[ind[j]]
  }

  /** The contract of `floats.Argsort`: `ind` sorts `keys` ascending. */
  ghost predicate IsArgsort(keys: seq<real>, ind: seq<nat>) {
    IsPermutation(ind, |keys|) && AscendingAlong(keys, ind)
  }

  /** The reversal of `s`: position i holds what position |s|-1-i held. */
  function Reversed<T>(s: seq<T>): seq<T> {
    seq(|s|, i requires 0 <= i < |s| => s[|s| - 1 - i])
  }

  /** Reversing twice gives back the input. */
  lemma ReversedInvolution<T>(s: seq<T>)
    ensures Reversed(Reversed(s)) == s
  {
  }

  /** The two-index swapping loop of `reverse`, on a value instead of a slice
      updated in place. */
  method Reverse<T>(numbers: seq<T>) returns (r: seq<T>)
    ensures r == Reversed(numbers)
  {
    r := numbers;
    var i, j := 0, |r| - 1;
    while i < j
      invariant |r| == |numbers|
      invariant 0 <= i <= j + 1 <= |r|
      invariant i + j == |r| - 1
      invariant forall t :: 0 <= t < i ==> r[t] == numbers[|r| - 1 - t] && r[|r| - 1 - t] == numbers[t]
      invariant forall t :: i <= t <= j ==> r[t] == numbers[t]
    {
      r := r[i := r[j]][j := r[i]];
      i, j := i + 1, j - 1;
    }
  }

  /** Reversal keeps a permutation a permutation. */
  lemma ReversedPermutation(p: seq<nat>, n: nat)
    requires IsPermutation(p, n)
    ensures IsPermutation(Reversed(p), n)
  {
    var r := Reversed(p);
    forall v | 0 <= v < n
      ensures v in r
    {
      assert v in p;
      var t :| 0 <= t < n && p[t] == v;
      assert r[n - 1 - t] == v;
    }
  }

  /** Reversing an ascending argsort ranks the keys from highest to lowest. */
  lemma ReversedArgsortDescends(keys: seq<real>, asc: seq<nat>)
    requires IsArgsort(keys, asc)
    ensures IsPermutation(Reversed(asc), |keys|)
    ensures DescendingAlong(keys, Reversed(asc))
  {
    ReversedPermutation(asc, |keys|);
    var n := |keys|;
    var d := Reversed(asc);
    forall i, j | 0 <= i < j < n
      ensures keys[d[i]] >= keys[d[j]]
    {
      assert d[i] == asc[n - 1 - i] && d[j] == asc[n - 1 - j];
    }
  }

  /** Inserting index n anywhere into a permutation of 0, ..., n-1 gives a
      permutation of 0, ..., n. */
  lemma InsertKeepsPermutation(ind: seq<nat>, n: nat, p: nat)
    requires p <= n && IsPermutation(ind, n)
    ensures IsPermutation(ind[..p] + [n] + ind[p..], n + 1)
  {
    var s := ind[..p] + [n] + ind[p..];
    assert forall q :: 0 <= q < p ==> s[q] == ind[q];
    assert forall q :: p < q <= n ==> s[q] == ind[q - 1];
    forall v | 0 <= v < n + 1
      ensures v in s
    {
      if v < n {
        assert v in ind;
        var t :| 0 <= t < n && ind[t] == v;
        if t < p {
          assert s[t] == v;
        } else {
          assert s[t + 1] == v;
        }
      } else {
        assert s[p] == v;
      }
    }
  }

  /** Inserting index n at position p of an ascending order of the first n
      keys, where p separates the keys not above keys[n] from those above it,
      keeps the order ascending. */
  lemma InsertKeepsAscending(keys: seq<real>, ind: seq<nat>, n: nat, p: nat)
    requires n < |keys| && p <= n && |ind| == n && IndicesIn(ind, n)
    requires AscendingAlong(keys, ind)
    requires forall q :: 0 <= q < p ==> keys[ind[q]] <= keys[n]
    requires p < n ==> keys[ind[p]] > keys[n]
    ensures IndicesIn(ind[..p] + [n] + ind[p..], |keys|)
    ensures AscendingAlong(keys, ind[..p] + [n] + ind[p..])
  {
    var s := ind[..p] + [n] + ind[p..];
    assert forall q :: 0 <= q < p ==> s[q] == ind[q];
    assert s[p] == n;
    assert forall q :: p < q <= n ==> s[q] == ind[q - 1];
    forall i, j | 0 <= i < j < n + 1
      ensures keys[s[i]] <= keys[s[j]]
    {
      if j < p {
      } else if j == p {
      } else if i < p {
        assert keys[ind[i]] <= keys[n];
        assert keys[ind[p]] <= keys[ind[j - 1]];
      } else if i == p {
        assert keys[ind[p]] <= keys[ind[j - 1]];
      } else {
      }
    }
  }

  /** Both together: the insertion gives an ascending argsort of the first
      n+1 keys. */
  lemma InsertKeepsArgsort(keys: seq<real>, ind: seq<nat>, n: nat, p: nat)
    requires n < |keys| && p <= n
    requires IsPermutation(ind, n) && AscendingAlong(keys, ind)
    requires forall q :: 0 <= q < p ==> keys[ind[q]] <= keys[n]
    requires p < n ==> keys[ind[p]] > keys[n]
    ensures IsPermutation(ind[..p] + [n] + ind[p..], n + 1)
    ensures AscendingAlong(keys, ind[..p] + [n] + ind[p..])
  {
    InsertKeepsPermutation(ind, n, p);
    InsertKeepsAscending(keys, ind, n, p);
  }

  /** An insertion sort of the indices: one order meeting the argsort
      contract, for every input. */
  method Argsort(keys: seq<real>) returns (ind: seq<nat>)
    ensures IsArgsort(keys, ind)
  {
    ind := [];
    var n := 0;
    while n < |keys|
      invariant n <= |keys|
      invariant IsPermutation(ind, n)
      invariant IndicesIn(ind, |keys|)
      invariant AscendingAlong(keys, ind)
    {
      var p := 0;
      while p < n && keys[ind[p]] <= keys[n]
        invariant p <= n
        invariant forall q :: 0 <= q < p ==> keys[ind[q]] <= keys[n]
      {
        p := p + 1;
      }
      InsertKeepsArgsort(keys, ind, n, p);
      ind := ind[..p] + [n] + ind[p..];
      n := n + 1;
    }
  }
}

=== FILE: outcomes.dfy ===
/** Outcomes of the metric operations that can fail.

The Go code has two ways of not producing a number: it panics (a caller bug:
mismatched lengths, a cut-off or an index outside the data), or a float
division by zero silently yields NaN or an infinity. Both are modelled as an
explicit error value so that every operation stays total.
 */
module Outcomes {

  datatype Fault =
    | LengthMismatch     // panic "Prediction/Label length mismatch"
    | CutoffOutOfBounds  // panic "index k is out of bounds"
    | IndexOutOfRange    // a runtime slice-index panic
    | NotFinite          // a zero denominator: Go returns NaN or an infinity

  datatype Result<+T> = Ok(value: T) | Err(fault: Fault)
}

=== FILE: ranking.dfy ===
/** The ranking evaluator: cumulative gain, discounted cumulative gain and
normalised discounted cumulative gain of a predicted ranking (metrics.go).

Relevancies and predictions are `real`. The discount of rank i, which the Go
code computes as `math.Log2(float64(i+2))`, is a parameter `discount`
constrained by `IsRankDiscount`: it is 1 at rank 0 (log2 2 = 1) and at least
1 everywhere. The relevancy function is a parameter, as in Go.
 */
module Ranking {
  import opened Outcomes
  import opened Ordering

  /** Ground-truth relevancies in original order, and the indices of the
      items ranked by prediction (highest first) and by relevancy itself. */
  datatype RankingEvaluation = RankingEvaluation(
    relevancies: seq<real>,
    predictedRankInd: seq<nat>,
    perfectRankInd: seq<nat>)

  /** What `NewRankingEvaluation` establishes: both rankings are
      permutations of the items. */
  ghost predicate WellFormed(e: RankingEvaluation) {
    && IsPermutation(e.predictedRankInd, |e.relevancies|)
    && IsPermutation(e.perfectRankInd, |e.relevancies|)
  }

  /** Stands for `math.Log2(float64(i+2))`: no discount at the top rank, and
      never a divisor below 1. */
  ghost predicate IsRankDiscount(discount: nat -> real) {
    discount(0) == 1.0 && forall i: nat :: discount(i) >= 1.0
  }

  /** Builds the evaluation from the ascending argsorts of the predictions
      and of the labels, each reversed so that the highest comes first. */
  function NewRankingEvaluation(predictions: seq<real>, labels: seq<real>,
                                predictionOrder: seq<nat>, labelOrder: seq<nat>): (r: Result<RankingEvaluation>)
    requires IsArgsort(predictions, predictionOrder)
    requires IsArgsort(labels, labelOrder)
    ensures r.Err? <==> |predictions| != |labels|
    ensures r.Err? ==> r.fault == LengthMismatch
    ensures r.Ok? ==> r.value.relevancies == labels && WellFormed(r.value)
    ensures r.Ok? ==> DescendingAlong(predictions, r.value.predictedRankInd)
    ensures r.Ok? ==> DescendingAlong(labels, r.value.perfectRankInd)
  {
    if |predictions| != |labels| then Err(LengthMismatch)
    else
      ReversedArgsortDescends(predictions, predictionOrder);
      ReversedArgsortDescends(labels, labelOrder);
      Ok(RankingEvaluation(labels, Reversed(predictionOrder), Reversed(labelOrder)))
  }

  /** Sum of the relevancies of the items listed in `ind`, added in order. */
  function GainOf(rels: seq<real>, ind: seq<nat>): real
    requires IndicesIn(ind, |rels|)
  {
    if |ind| == 0 then 0.0 else GainOf(rels, ind[..|ind| - 1]) + rels[ind[|ind| - 1]]
  }

  /** Plain sum of a sequence, added in order. */
  function Sum(s: seq<real>): real {
    if |s| == 0 then 0.0 else Sum(s[..|s| - 1]) + s[|s| - 1]
  }

  /** Largest element of a non-empty sequence (`floats.Max`). */
  function Max(s: seq<real>): (m: real)
    requires |s| > 0
    ensures forall i :: 0 <= i < |s| ==> s[i] <= m
    ensures exists i :: 0 <= i < |s| && s[i] == m
  {
    if |s| == 1 then s[0]
    else
      var rest := Max(s[..|s| - 1]);
      if s[|s| - 1] > rest then s[|s| - 1] else rest
  }

  /** Cumulative gain at cut-off k: the summed relevancy of the k items
      ranked highest by prediction. */
  function CumulativeGain(e: RankingEvaluation, k: int): (r: Result<real>)
    requires WellFormed(e)
    ensures r.Err? <==> k < 1 || k > |e.relevancies|
    ensures r.Err? ==> r.fault == CutoffOutOfBounds
  {
    if k < 1 || k > |e.relevancies| then Err(CutoffOutOfBounds)
    else Ok(GainOf(e.relevancies, e.predictedRankInd[..k]))
  }

  /** The identity relevancy function. */
  function TraditionalRelevancy(r: real): real {
    r
  }

  /** Sum over the first k entries of `ranking` of the transformed relevancy
      divided by the discount of its rank. */
  function DiscountedGain(rels: seq<real>, ranking: seq<nat>, k: nat,
                          rel: real -> real, discount: nat -> real): real
    requires k <= |ranking| && IndicesIn(ranking, |rels|)
    requires IsRankDiscount(discount)
  {
    if k == 0 then 0.0
    else DiscountedGain(rels, ranking, k - 1, rel, discount) + rel(rels[ranking[k - 1]]) / discount(k - 1)
  }

  /** Discounted cumulative gain of the predicted ranking at cut-off k. */
  function DiscountedCumulativeGain(e: RankingEvaluation, k: int,
                                    rel: real -> real, discount: nat -> real): (r: Result<real>)
    requires WellFormed(e) && IsRankDiscount(discount)
    ensures r.Err? <==> k < 1 || k > |e.relevancies|
    ensures r.Err? ==> r.fault == CutoffOutOfBounds
  {
    if k < 1 || k > |e.relevancies| then Err(CutoffOutOfBounds)
    else Ok(DiscountedGain(e.relevancies, e.predictedRankInd, k, rel, discount))
  }

  /** Discounted cumulative gain of the predicted ranking relative to that of
      the perfect ranking. Exactly 1 when the largest relevancy is 0; a zero
      ideal gain otherwise yields a non-finite float in Go. */
  function NormalisedDiscountedCumulativeGain(e: RankingEvaluation, k: int,
                                              rel: real -> real, discount: nat -> real): (r: Result<real>)
    requires WellFormed(e) && IsRankDiscount(discount)
    ensures r.Err? && r.fault == CutoffOutOfBounds <==> k < 1 || k > |e.relevancies|
    ensures 1 <= k <= |e.relevancies| && Max(e.relevancies) == 0.0 ==> r == Ok(1.0)
    ensures r.Err? && r.fault == NotFinite ==> Max(e.relevancies) != 0.0
  {
    if k < 1 || k > |e.relevancies| then Err(CutoffOutOfBounds)
    else if Max(e.relevancies) == 0.0 then Ok(1.0)
    else
      var ideal := DiscountedGain(e.relevancies, e.perfectRankInd, k, rel, discount);
      if ideal == 0.0 then Err(NotFinite)
      else Ok(DiscountedGain(e.relevancies, e.predictedRankInd, k, rel, discount) / ideal)
  }

  // ---------------------------------------------------------------------
  // Properties

  lemma {:induction false} GainOfAppend(rels: seq<real>, a: seq<nat>, b: seq<nat>)
    requires IndicesIn(a, |rels|) && IndicesIn(b, |rels|)
    ensures IndicesIn(a + b, |rels|)
    ensures GainOf(rels, a + b) == GainOf(rels, a) + GainOf(rels, b)
    decreases |b|
  {
    if |b| > 0 {
      var b' := b[..|b| - 1];
      assert (a + b)[..|a + b| - 1] == a + b';
      GainOfAppend(rels, a, b');
    } else {
      assert a + b == a;
    }
  }

  /** Dropping entry `pos` from a permutation of 0..n-1 that holds n-1 there
      leaves a permutation of 0..n-2. */
  lemma DropLargest(p: seq<nat>, n: nat, pos: nat)
    requires IsPermutation(p, n) && pos < n && p[pos] == n - 1
    ensures IsPermutation(p[..pos] + p[pos + 1..], n - 1)
  {
    var q := p[..pos] + p[pos + 1..];
    assert forall i :: 0 <= i < pos ==> q[i] == p[i];
    assert forall i :: pos <= i < n - 1 ==> q[i] == p[i + 1];
    forall i | 0 <= i < n - 1
      ensures q[i] < n - 1
    {
      if i < pos { assert p[i] != p[pos]; } else { assert p[i + 1] != p[pos]; }
    }
    forall i, j | 0 <= i < j < n - 1
      ensures q[i] != q[j]
    {
      var i' := if i < pos then i else i + 1;
      var j' := if j < pos then j else j + 1;
      assert q[i] == p[i'] && q[j] == p[j'] && i' < j';
    }
    forall v | 0 <= v < n - 1
      ensures v in q
    {
      assert v in p;
      var t :| 0 <= t < n && p[t] == v;
      if t < pos { assert q[t] == v; } else { assert t != pos; assert q[t - 1] == v; }
    }
  }

  /** Removing one entry from an index list removes its relevancy from the
      gain. */
  lemma GainWithout(rels: seq<real>, p: seq<nat>, pos: nat)
    requires IndicesIn(p, |rels|) && pos < |p|
    ensures IndicesIn(p[..pos] + p[pos + 1..], |rels|)
    ensures GainOf(rels, p) == GainOf(rels, p[..pos] + p[pos + 1..]) + rels[p[pos]]
  {
    var x := p[pos];
    assert p == p[..pos] + [x] + p[pos + 1..];
    GainOfAppend(rels, p[..pos] + [x], p[pos + 1..]);
    GainOfAppend(rels, p[..pos], [x]);
    GainOfAppend(rels, p[..pos], p[pos + 1..]);
    assert GainOf(rels, [x]) == rels[x] by {
      assert [x][..0] == [];
    }
  }

  /** Summing the relevancies along any permutation gives their plain sum. */
  lemma {:induction false} PermutedGain(rels: seq<real>, p: seq<nat>, n: nat)
    requires n <= |rels| && IsPermutation(p, n)
    ensures IndicesIn(p, |rels|)
    ensures GainOf(rels, p) == Sum(rels[..n])
    decreases n
  {
    if n > 0 {
      assert n - 1 in p;
      var pos :| 0 <= pos < n && p[pos] == n - 1;
      DropLargest(p, n, pos);
      PermutedGain(rels, p[..pos] + p[pos + 1..], n - 1);
      GainWithout(rels, p, pos);
      assert rels[..n][..n - 1] == rels[..n - 1];
    } else {
      assert p == [];
    }
  }

  /** With no cut-off, the cumulative gain is the sum of all relevancies,
      whatever the predicted ranking. */
  lemma CumulativeGainOfAll(e: RankingEvaluation)
    requires WellFormed(e) && |e.relevancies| > 0
    ensures CumulativeGain(e, |e.relevancies|) == Ok(Sum(e.relevancies))
  {
    var n := |e.relevancies|;
    assert e.predictedRankInd[..n] == e.predictedRankInd;
    assert e.relevancies[..n] == e.relevancies;
    PermutedGain(e.relevancies, e.predictedRankInd, n);
  }

  /** The top rank is not discounted: DCG at cut-off 1 is the transformed
      relevancy of the item predicted first. */
  lemma DiscountedGainAtTop(e: RankingEvaluation, rel: real -> real, discount: nat -> real)
    requires WellFormed(e) && IsRankDiscount(discount) && |e.relevancies| > 0
    ensures DiscountedCumulativeGain(e, 1, rel, discount)
            == Ok(rel(e.relevancies[e.predictedRankInd[0]]))
  {
    var x := rel(e.relevancies[e.predictedRankInd[0]]);
    assert DiscountedGain(e.relevancies, e.predictedRankInd, 0, rel, discount) == 0.0;
    assert discount(0) == 1.0;
    assert x / 1.0 == x;
  }

  /** With the traditional relevancy and non-negative relevancies,
      discounting only ever lowers the gain: 0 <= DCG(k) <= CG(k). */
  lemma {:induction false} DiscountLowersGain(rels: seq<real>, ranking: seq<nat>, k: nat, discount: nat -> real)
    requires k <= |ranking| && IndicesIn(ranking, |rels|) && IsRankDiscount(discount)
    requires forall i :: 0 <= i < |rels| ==> rels[i] >= 0.0
    ensures 0.0 <= DiscountedGain(rels, ranking, k, TraditionalRelevancy, discount)
    ensures DiscountedGain(rels, ranking, k, TraditionalRelevancy, discount) <= GainOf(rels, ranking[..k])
  {
    if k > 0 {
      DiscountLowersGain(rels, ranking, k - 1, discount);
      assert ranking[..k][..k - 1] == ranking[..k - 1];
      var x := rels[ranking[k - 1]];
      var d := discount(k - 1);
      assert d >= 1.0;
      assert x / d <= x by {
        assert x <= x * d;
      }
      assert 0.0 <= x / d;
    }
  }

  /** A discount of 1 at every rank. */
  function NoDiscount(i: nat): real {
    1.0
  }

  /** The traditional relevancy passes each label through unchanged: with no
      discount at any rank, the discounted gain of a prefix is its plain
      cumulative gain. */
  lemma {:induction false} UndiscountedTraditionalGain(rels: seq<real>, ranking: seq<nat>, k: nat)
    requires k <= |ranking| && IndicesIn(ranking, |rels|)
    ensures IsRankDiscount(NoDiscount)
    ensures DiscountedGain(rels, ranking, k, TraditionalRelevancy, NoDiscount) == GainOf(rels, ranking[..k])
  {
    if k > 0 {
      UndiscountedTraditionalGain(rels, ranking, k - 1);
      assert ranking[..k][..k - 1] == ranking[..k - 1];
    }
  }

  /** The same bound stated on the evaluation. */
  lemma DiscountedGainBelowCumulativeGain(e: RankingEvaluation, k: int, discount: nat -> real)
    requires WellFormed(e) && IsRankDiscount(discount) && 1 <= k <= |e.relevancies|
    requires forall i :: 0 <= i < |e.relevancies| ==> e.relevancies[i] >= 0.0
    ensures 0.0 <= DiscountedCumulativeGain(e, k, TraditionalRelevancy, discount).value
    ensures DiscountedCumulativeGain(e, k, TraditionalRelevancy, discount).value <= CumulativeGain(e, k).value
  {
    DiscountLowersGain(e.relevancies, e.predictedRankInd, k, discount);
  }

  /** When no item is relevant at all, every ordering is perfect. */
  lemma NoRelevantItemsIsPerfect(e: RankingEvaluation, k: int, rel: real -> real, discount: nat -> real)
    requires WellFormed(e) && IsRankDiscount(discount) && 1 <= k <= |e.relevancies|
    requires forall i :: 0 <= i < |e.relevancies| ==> e.relevancies[i] == 0.0
    ensures NormalisedDiscountedCumulativeGain(e, k, rel, discount) == Ok(1.0)
  {
    var m := Max(e.relevancies);
    var i :| 0 <= i < |e.relevancies| && e.relevancies[i] == m;
  }

  /** A predicted ranking that agrees with the perfect one down to the
      cut-off scores exactly 1. The one exception is a nonzero largest
      relevancy with an ideal gain of zero, where the Go division is 0/0. */
  lemma IdealRankingScoresOne(e: RankingEvaluation, k: int, rel: real -> real, discount: nat -> real)
    requires WellFormed(e) && IsRankDiscount(discount) && 1 <= k <= |e.relevancies|
    requires e.predictedRankInd[..k] == e.perfectRankInd[..k]
    ensures NormalisedDiscountedCumulativeGain(e, k, rel, discount)
            == if Max(e.relevancies) != 0.0 && DiscountedGain(e.relevancies, e.perfectRankInd, k, rel, discount) == 0.0
               then Err(NotFinite) else Ok(1.0)
  {
    SameTopSameGain(e.relevancies, e.predictedRankInd, e.perfectRankInd, k, rel, discount);
    var ideal := DiscountedGain(e.relevancies, e.perfectRankInd, k, rel, discount);
    if ideal != 0.0 {
      assert ideal / ideal == 1.0;
    }
  }

  /** With the traditional relevancy and non-negative relevancies, the
      discounted gain never falls as the cut-off deepens. */
  lemma {:induction false} DiscountedGainGrows(rels: seq<real>, ranking: seq<nat>, j: nat, k: nat,
                                               discount: nat -> real)
    requires j <= k <= |ranking| && IndicesIn(ranking, |rels|) && IsRankDiscount(discount)
    requires forall i :: 0 <= i < |rels| ==> rels[i] >= 0.0
    ensures DiscountedGain(rels, ranking, j, TraditionalRelevancy, discount)
            <= DiscountedGain(rels, ranking, k, TraditionalRelevancy, discount)
    decreases k - j
  {
    if j < k {
      DiscountedGainGrows(rels, ranking, j, k - 1, discount);
      var x := rels[ranking[k - 1]];
      var d := discount(k - 1);
      assert d >= 1.0;
      assert 0.0 <= x / d;
    }
  }

  /** When the perfect ranking descends along non-negative relevancies that
      are not all zero, its discounted gain is positive at every cut-off:
      its top item carries the largest relevancy. */
  lemma IdealGainPositive(e: RankingEvaluation, k: int, discount: nat -> real)
    requires WellFormed(e) && IsRankDiscount(discount) && 1 <= k <= |e.relevancies|
    requires DescendingAlong(e.relevancies, e.perfectRankInd)
    requires forall i :: 0 <= i < |e.relevancies| ==> e.relevancies[i] >= 0.0
    requires Max(e.relevancies) != 0.0
    ensures DiscountedGain(e.relevancies, e.perfectRankInd, k, TraditionalRelevancy, discount) > 0.0
  {
    var rels := e.relevancies;
    var perfect := e.perfectRankInd;
    var m := Max(rels);
    var i :| 0 <= i < |rels| && rels[i] == m;
    assert i in perfect;
    var j :| 0 <= j < |rels| && perfect[j] == i;
    var top := rels[perfect[0]];
    if j > 0 {
      assert top >= rels[perfect[j]];
    }
    assert DiscountedGain(rels, perfect, 1, TraditionalRelevancy, discount) == top by {
      assert DiscountedGain(rels, perfect, 0, TraditionalRelevancy, discount) == 0.0;
      assert discount(0) == 1.0;
      assert top / 1.0 == top;
    }
    DiscountedGainGrows(rels, perfect, 1, k, discount);
  }

  /** On an evaluation built from non-negative labels, a predicted ranking
      that agrees with the perfect one down to the cut-off has NDCG exactly 1
      under the traditional relevancy: the ideal gain is never zero there. */
  lemma PerfectPredictionScoresOne(predictions: seq<real>, labels: seq<real>,
                                   predictionOrder: seq<nat>, labelOrder: seq<nat>,
                                   k: int, discount: nat -> real)
    requires IsArgsort(predictions, predictionOrder) && IsArgsort(labels, labelOrder)
    requires |predictions| == |labels| && IsRankDiscount(discount) && 1 <= k <= |labels|
    requires forall i :: 0 <= i < |labels| ==> labels[i] >= 0.0
    requires NewRankingEvaluation(predictions, labels, predictionOrder, labelOrder).value.predictedRankInd[..k]
             == NewRankingEvaluation(predictions, labels, predictionOrder, labelOrder).value.perfectRankInd[..k]
    ensures NormalisedDiscountedCumulativeGain(
              NewRankingEvaluation(predictions, labels, predictionOrder, labelOrder).value,
              k, TraditionalRelevancy, discount) == Ok(1.0)
  {
    var e := NewRankingEvaluation(predictions, labels, predictionOrder, labelOrder).value;
    assert e.relevancies == labels;
    IdealRankingScoresOne(e, k, TraditionalRelevancy, discount);
    if Max(e.relevancies) != 0.0 {
      IdealGainPositive(e, k, discount);
    }
  }

  lemma {:induction false} SameTopSameGain(rels: seq<real>, a: seq<nat>, b: seq<nat>, k: nat,
                                           rel: real -> real, discount: nat -> real)
    requires k <= |a| && k <= |b| && IndicesIn(a, |rels|) && IndicesIn(b, |rels|)
    requires IsRankDiscount(discount) && a[..k] == b[..k]
    ensures DiscountedGain(rels, a, k, rel, discount) == DiscountedGain(rels, b, k, rel, discount)
  {
    if k > 0 {
      assert a[..k - 1] == a[..k][..k - 1] && b[..k - 1] == b[..k][..k - 1];
      assert a[k - 1] == a[..k][k - 1];
      SameTopSameGain(rels, a, b, k - 1, rel, discount);
    }
  }
}

=== FILE: scenarios.dfy ===
/** Worked examples: the first and fourth data sets of metrics_test.go,
worked through the curve and its summaries, the first also through the
ranking evaluator, and a small confusion matrix. */
module Scenarios {
  import opened Outcomes
  import opened Ordering
  import opened PrecisionRecall
  import opened CurveSummaries
  import opened Ranking
  import opened Confusion

  // ---------------------------------------------------------------------------
  // Data set 1: two relevant items, one irrelevant item ranked between them

  const scores1: seq<real> := [0.1, 0.4, 0.35, 0.8]
  const labels1: seq<real> := [0.0, 0.0, 1.0, 1.0]
  /** The ascending argsort of `scores1` (the scores are distinct, so it is
      the only one). */
  const order1: seq<nat> := [0, 2, 1, 3]
  const curve1: Curve := Curve([2.0 / 3.0, 0.5, 1.0, 1.0], [1.0, 0.5, 0.5, 0.0], [0.35, 0.4, 0.8], 2)

  lemma FirstOrderSorts()
    ensures IsArgsort(scores1, order1)
  {
    assert order1[0] == 0 && order1[2] == 1 && order1[1] == 2 && order1[3] == 3;
  }

  lemma FirstRanking()
    ensures Reversed(order1) == [3, 1, 2, 0]
    ensures Positives(labels1) == 2
    ensures Depth(labels1, [3, 1, 2, 0]) == 3
  {
    assert RelevantSet(labels1) == {2, 3};
    assert [3, 1, 2, 0][..3] == [3, 1, 2];
  }

  lemma FirstHits()
    ensures HitsAt(labels1, [3, 1, 2, 0], 1) == 1
    ensures HitsAt(labels1, [3, 1, 2, 0], 2) == 1
    ensures HitsAt(labels1, [3, 1, 2, 0], 3) == 2
  {
  }

  /** The curve the Go test expects for data set 1. */
  lemma FirstCurve()
    ensures IsArgsort(scores1, order1)
    ensures RankedCurve(scores1, labels1, order1) == Ok(curve1)
  {
    FirstOrderSorts();
    RankedCurveUnfolds(scores1, labels1, order1);
    FirstRanking();
    FirstHits();
    var ranking: seq<nat> := [3, 1, 2, 0];
    assert PrecisionPoints(labels1, ranking, 3) == [2.0 / 3.0, 0.5, 1.0, 1.0];
    assert RecallPoints(labels1, ranking, 3, 2) == [1.0, 0.5, 0.5, 0.0];
    assert TopThresholds(scores1, order1, 3) == [0.35, 0.4, 0.8];
  }

  /** Average precision 5/6 (the test's 0.8333...): the mean of the
      precisions 1 and 2/3 at the two relevant ranks. */
  lemma FirstAveragePrecision()
    ensures AveragePrecision(curve1) == Ok(5.0 / 6.0)
  {
    assert StepSum(curve1.precision, curve1.recall, 3) == -(5.0 / 6.0);
  }

  /** Interpolated precision is 1 up to recall 0.5 and 2/3 above it. */
  lemma FirstInterpolatedPrecision(i: nat)
    requires i <= 10
    ensures InterpolatedPrecisionAt(curve1, Level(i)) == if i <= 5 then Ok(1.0) else Ok(2.0 / 3.0)
  {
    var c := curve1;
    if i <= 5 {
      assert c.recall[2] >= Level(i);
    } else {
      assert c.recall[0] >= Level(i) && c.recall[1] < Level(i);
    }
  }

  /** Interpolated precision 1 at the first six levels and 2/3 at the
      others adds up to n over the first n <= 6 levels and to
      6 + (n-6) * 2/3 beyond. */
  lemma {:induction false} SumOfFirstLevels(c: Curve, n: nat)
    requires n <= 11
    requires forall i :: 0 <= i < n ==> InterpolatedPrecisionAt(c, Level(i)) == if i <= 5 then Ok(1.0) else Ok(2.0 / 3.0)
    ensures InterpolatedSum(c, n) == Ok(if n <= 6 then n as real else 6.0 + (n - 6) as real * (2.0 / 3.0))
  {
    if n > 0 {
      SumOfFirstLevels(c, n - 1);
      InterpolatedSumStep(c, n);
    }
  }

  /** The 11-point average is 28/33 (the test's 0.848485). */
  lemma FirstAverageInterpolatedPrecision()
    ensures AverageInterpolatedPrecision(curve1) == Ok(28.0 / 33.0)
  {
    forall i | 0 <= i < 11
      ensures InterpolatedPrecisionAt(curve1, Level(i)) == if i <= 5 then Ok(1.0) else Ok(2.0 / 3.0)
    {
      FirstInterpolatedPrecision(i);
    }
    SumOfFirstLevels(curve1, 11);
  }

  /** Precision at 0, 1, 2, 3 is 1, 1, 1/2, 2/3 as the test expects;
      R-precision is the precision at 2. */
  lemma FirstCutoffs()
    ensures PrecisionAt(curve1, 0) == Ok(1.0)
    ensures PrecisionAt(curve1, 1) == Ok(1.0)
    ensures PrecisionAt(curve1, 2) == Ok(0.5)
    ensures PrecisionAt(curve1, 3) == Ok(2.0 / 3.0)
    ensures PrecisionAt(curve1, 4) == Err(IndexOutOfRange)
    ensures RPrecision(curve1) == Ok(0.5)
  {
  }

  // ---------------------------------------------------------------------------
  // Data set 4: nothing relevant

  const scores4: seq<real> := [0.02, 0.1]
  const labels4: seq<real> := [0.0, 0.0]
  const order4: seq<nat> := [0, 1]

  lemma FourthOrderSorts()
    ensures IsArgsort(scores4, order4)
  {
    assert order4[0] == 0 && order4[1] == 1;
  }

  /** Only the anchor remains; average precision 0, the 11-point average 1/11
      (the test's 0.090909) and R-precision 1. */
  lemma NothingRelevant()
    ensures IsArgsort(scores4, order4)
    ensures RankedCurve(scores4, labels4, order4) == Ok(Curve([1.0], [0.0], [], 0))
    ensures AveragePrecision(Curve([1.0], [0.0], [], 0)) == Ok(0.0)
    ensures AverageInterpolatedPrecision(Curve([1.0], [0.0], [], 0)) == Ok(1.0 / 11.0)
    ensures RPrecision(Curve([1.0], [0.0], [], 0)) == Ok(1.0)
  {
    FourthOrderSorts();
    assert RelevantSet(labels4) == {};
    NoRelevantLabelsCurve(scores4, labels4, order4);
    AnchorOnlyInterpolatedAverage();
  }

  // ---------------------------------------------------------------------------
  // Ranking evaluator on data set 1

  /** The labels [0, 0, 1, 1] tie, so they have several argsorts. Whichever
      one is used, the perfect ranking puts the two relevant items 2 and 3
      first and the irrelevant items 0 and 1 last. */
  lemma FirstPerfectRanking(labelOrder: seq<nat>)
    requires IsArgsort(labels1, labelOrder)
    ensures var p := Reversed(labelOrder);
      && |p| == 4
      && {p[0], p[1]} == {2, 3}
      && {p[2], p[3]} == {0, 1}
  {
    ReversedArgsortDescends(labels1, labelOrder);
    var p := Reversed(labelOrder);
    assert 2 in p && 3 in p;
    var a :| 0 <= a < 4 && p[a] == 2;
    var b :| 0 <= b < 4 && p[b] == 3;
    // the first two ranks are at or above the later of the two relevant
    // items, so they hold label 1 too
    var later := if a < b then b else a;
    assert 1 <= later && labels1[p[later]] == 1.0;
    assert labels1[p[0]] >= labels1[p[later]] && labels1[p[1]] >= labels1[p[later]];
    assert p[0] in {2, 3} && p[1] in {2, 3} && p[0] != p[1];
    assert p[2] != p[0] && p[2] != p[1] && p[3] != p[0] && p[3] != p[1] && p[2] != p[3];
  }

  /** The evaluation of data set 1, for every argsort of the labels: the
      predicted ranking is 3, 1, 2, 0, and the perfect ranking puts items 2
      and 3 before items 0 and 1. */
  lemma FirstEvaluation(labelOrder: seq<nat>)
    requires IsArgsort(labels1, labelOrder)
    ensures IsArgsort(scores1, order1)
    ensures NewRankingEvaluation(scores1, labels1, order1, labelOrder).Ok?
    ensures var e := NewRankingEvaluation(scores1, labels1, order1, labelOrder).value;
      && e.relevancies == labels1
      && e.predictedRankInd == [3, 1, 2, 0]
      && |e.perfectRankInd| == 4
      && {e.perfectRankInd[0], e.perfectRankInd[1]} == {2, 3}
      && {e.perfectRankInd[2], e.perfectRankInd[3]} == {0, 1}
  {
    FirstOrderSorts();
    FirstRanking();
    FirstPerfectRanking(labelOrder);
  }

  /** Cumulative gain over all four items is 2, the test's value, for every
      argsort of the labels. */
  lemma FirstCumulativeGain(labelOrder: seq<nat>)
    requires IsArgsort(labels1, labelOrder)
    ensures NewRankingEvaluation(scores1, labels1, order1, labelOrder).Ok?
    ensures CumulativeGain(NewRankingEvaluation(scores1, labels1, order1, labelOrder).value, 4) == Ok(2.0)
  {
    FirstEvaluation(labelOrder);
    var ranking: seq<nat> := [3, 1, 2, 0];
    assert ranking[..4] == ranking;
    assert ranking[..3] == [3, 1, 2] && [3, 1, 2][..2] == [3, 1] && [3, 1][..1] == [3] && [3][..0] == [];
  }

  /** Discounted cumulative gain over all four items is 1 + 1/discount(2),
      which is the test's 1.5 under the discount log2(2+2) = 2. */
  lemma FirstDiscountedGain(labelOrder: seq<nat>, discount: nat -> real)
    requires IsArgsort(labels1, labelOrder) && IsRankDiscount(discount)
    ensures NewRankingEvaluation(scores1, labels1, order1, labelOrder).Ok?
    ensures DiscountedCumulativeGain(NewRankingEvaluation(scores1, labels1, order1, labelOrder).value, 4,
        TraditionalRelevancy, discount)
      == Ok(1.0 + 1.0 / discount(2))
  {
    FirstEvaluation(labelOrder);
    FirstPredictedGain(discount);
  }

  /** The discounted gain of the predicted ranking 3, 1, 2, 0 of data set 1:
      the relevant items sit at ranks 0 and 2. */
  lemma FirstPredictedGain(discount: nat -> real)
    requires IsRankDiscount(discount)
    ensures IndicesIn([3, 1, 2, 0], 4)
    ensures DiscountedGain(labels1, [3, 1, 2, 0], 4, TraditionalRelevancy, discount) == 1.0 + 1.0 / discount(2)
  {
    var p: seq<nat> := [3, 1, 2, 0];
    assert DiscountedGain(labels1, p, 1, TraditionalRelevancy, discount) == 1.0;
    assert DiscountedGain(labels1, p, 2, TraditionalRelevancy, discount) == 1.0;
    assert DiscountedGain(labels1, p, 3, TraditionalRelevancy, discount) == 1.0 + 1.0 / discount(2);
  }

  /** The perfect ranking of data set 1 gains 1 + 1/discount(1) over all four
      items, whichever of its tied orders is used. */
  lemma FirstIdealGain(labelOrder: seq<nat>, discount: nat -> real)
    requires IsArgsort(labels1, labelOrder) && IsRankDiscount(discount)
    ensures IndicesIn(Reversed(labelOrder), 4)
    ensures DiscountedGain(labels1, Reversed(labelOrder), 4, TraditionalRelevancy, discount)
      == 1.0 + 1.0 / discount(1)
  {
    FirstPerfectRanking(labelOrder);
    ReversedPermutation(labelOrder, 4);
    var p := Reversed(labelOrder);
    assert labels1[p[0]] == 1.0 && labels1[p[1]] == 1.0 && labels1[p[2]] == 0.0 && labels1[p[3]] == 0.0;
    assert DiscountedGain(labels1, p, 1, TraditionalRelevancy, discount) == 1.0;
    assert DiscountedGain(labels1, p, 2, TraditionalRelevancy, discount) == 1.0 + 1.0 / discount(1);
    assert DiscountedGain(labels1, p, 3, TraditionalRelevancy, discount) == 1.0 + 1.0 / discount(1);
  }

  /** Normalised discounted cumulative gain over all four items is
      (1 + 1/discount(2)) / (1 + 1/discount(1)), which is the test's
      0.9197... under log2. */
  lemma FirstNormalisedGain(labelOrder: seq<nat>, discount: nat -> real)
    requires IsArgsort(labels1, labelOrder) && IsRankDiscount(discount)
    ensures NewRankingEvaluation(scores1, labels1, order1, labelOrder).Ok?
    ensures NormalisedDiscountedCumulativeGain(NewRankingEvaluation(scores1, labels1, order1, labelOrder).value, 4,
        TraditionalRelevancy, discount)
      == Ok((1.0 + 1.0 / discount(2)) / (1.0 + 1.0 / discount(1)))
  {
    FirstEvaluation(labelOrder);
    FirstPredictedGain(discount);
    FirstIdealGain(labelOrder, discount);
    var e := NewRankingEvaluation(scores1, labels1, order1, labelOrder).value;
    assert Max(e.relevancies) != 0.0 by {
      assert e.relevancies[2] <= Max(e.relevancies);
    }
    assert 1.0 / discount(1) > 0.0;
  }

  // ---------------------------------------------------------------------------
  // Confusion matrix

  const predictionsC: seq<real> := [0.1, 0.9, 0.6, 0.3, 0.7]
  /** The label 2 at index 3 is not 1, so that observation is a negative. */
  const labelsC: seq<real> := [0.0, 1.0, 0.0, 2.0, 1.0]

  /** At threshold 0.5: true positives 1 and 4, false positive 2, true
      negatives 0 and 3, no false negative. */
  lemma ConfusionAtHalf(c: ConfusionMatrix)
    requires Tallies(c, predictionsC, labelsC, 0.5)
    ensures c == ConfusionMatrix(5, 2, 3, 2, 2, 1, 0)
    ensures Precision(c) == Ok(2.0 / 3.0)
    ensures Recall(c) == Ok(1.0)
    ensures Accuracy(c) == Ok(0.8)
    ensures F1(c) == Ok(0.8)
  {
    assert Actual(labelsC, 5, true) == {1, 4};
    assert Actual(labelsC, 5, false) == {0, 2, 3};
    assert Cell(predictionsC, labelsC, 0.5, 5, true, true) == {1, 4};
    assert Cell(predictionsC, labelsC, 0.5, 5, true, false) == {};
    assert Cell(predictionsC, labelsC, 0.5, 5, false, true) == {2};
    assert Cell(predictionsC, labelsC, 0.5, 5, false, false) == {0, 3};
    F1Value(c);
  }

  const predictionsD: seq<real> := [0.1, 0.9, 0.6, 0.3]
  const labelsD: seq<real> := [0.0, 1.0, 1.0, 0.0]

  /** At threshold 0.5 both items labelled 1 score above the threshold, so
      the matrix holds two true positives and no false negative: every rate
      is 1. */
  lemma BothPositivesFound(c: ConfusionMatrix)
    requires Tallies(c, predictionsD, labelsD, 0.5)
    ensures c == ConfusionMatrix(4, 2, 2, 2, 2, 0, 0)
    ensures Precision(c) == Ok(1.0)
    ensures Recall(c) == Ok(1.0)
    ensures Accuracy(c) == Ok(1.0)
  {
    assert Actual(labelsD, 4, true) == {1, 2};
    assert Actual(labelsD, 4, false) == {0, 3};
    assert Cell(predictionsD, labelsD, 0.5, 4, true, true) == {1, 2};
    assert Cell(predictionsD, labelsD, 0.5, 4, true, false) == {};
    assert Cell(predictionsD, labelsD, 0.5, 4, false, true) == {};
    assert Cell(predictionsD, labelsD, 0.5, 4, false, false) == {0, 3};
  }
}

=== FILE: summaries.dfy ===
/** Single-number summaries of a precision-recall curve (metrics.go): average
precision, interpolated precision and its 11-point average, R-precision and
precision at a cut-off.

Each summary reads the curve's exported slices by index; the Go code panics
when an index falls outside them, which is modelled as `Err(IndexOutOfRange)`.
For a curve built by `NewPrecisionRecallCurve` none of them fails except
`PrecisionAt` at a k outside 0 to the depth of the ranking.
 */
module CurveSummaries {
  import opened Outcomes
  import opened Ordering
  import opened PrecisionRecall
  import opened Counting

  // ---------------------------------------------------------------------------
  // Average precision

  /** Step i of the `AveragePrecision` loop: the change in recall from point
      i to point i+1 weighted by the precision at point i. */
  function StepAt(precision: seq<real>, recall: seq<real>, i: nat): real
    requires i < |precision| && i + 1 < |recall|
  {
    (recall[i + 1] - recall[i]) * precision[i]
  }

  /** The loop sum of `AveragePrecision` over its first n steps. */
  function StepSum(precision: seq<real>, recall: seq<real>, n: nat): real
    requires n <= |precision| && n < |recall|
  {
    if n == 0 then 0.0 else StepSum(precision, recall, n - 1) + StepAt(precision, recall, n - 1)
  }

  /** Area under the curve as a step function, negated because recall falls
      along the curve. */
  function AveragePrecision(c: Curve): (ap: Result<real>)
    ensures ap.Err? <==> 1 < |c.precision| && |c.recall| < |c.precision|
    ensures ap.Err? ==> ap.fault == IndexOutOfRange
  {
    if |c.precision| <= 1 then Ok(0.0)
    else if |c.recall| < |c.precision| then Err(IndexOutOfRange)
    else Ok(-StepSum(c.precision, c.recall, |c.precision| - 1))
  }

  lemma StepBounds(d: real, p: real)
    requires d <= 0.0 && 0.0 <= p <= 1.0
    ensures d <= d * p <= 0.0
  {
    assert d * p - d == d * (p - 1.0);
    assert (-d) * (1.0 - p) >= 0.0;
  }

  /** A step down in recall weighted by a precision in [0, 1] lies between
      the fall in recall (negated) and 0. */
  lemma StepAtBounds(precision: seq<real>, recall: seq<real>, i: nat)
    requires i < |precision| && i + 1 < |recall|
    requires 0.0 <= precision[i] <= 1.0 && recall[i + 1] <= recall[i]
    ensures recall[i + 1] - recall[i] <= StepAt(precision, recall, i) <= 0.0
  {
    StepBounds(recall[i + 1] - recall[i], precision[i]);
  }

  /** Along a falling recall and precisions in [0, 1], the loop sum lies
      between the total fall of recall (negated) and 0. */
  lemma {:induction false} StepSumBounds(precision: seq<real>, recall: seq<real>, n: nat)
    requires n <= |precision| && n < |recall|
    requires forall i :: 0 <= i < n ==> 0.0 <= precision[i] <= 1.0
    requires forall i :: 0 <= i < n ==> recall[i + 1] <= recall[i]
    ensures recall[n] - recall[0] <= StepSum(precision, recall, n) <= 0.0
  {
    if n > 0 {
      StepSumBounds(precision, recall, n - 1);
      StepAtBounds(precision, recall, n - 1);
    }
  }

  /** The average precision of every valid curve lies in [0, 1]. */
  lemma AveragePrecisionInUnit(c: Curve)
    requires ValidCurve(c)
    ensures AveragePrecision(c).Ok?
    ensures 0.0 <= AveragePrecision(c).value <= 1.0
  {
    var n := |c.precision| - 1;
    if n > 0 {
      StepSumBounds(c.precision, c.recall, n);
    }
  }

  /** The textbook average precision of the top j items of a ranking: the
      sum, over the ranks up to j that hold a relevant item, of the precision
      of the ranking cut off at that rank, divided by the number of relevant
      items. */
  function MeanHitPrecision(labels: seq<real>, ranking: seq<nat>, positives: nat, j: nat): real
    requires j <= |ranking| && IndicesIn(ranking, |labels|) && positives > 0
  {
    if j == 0 then 0.0
    else
      MeanHitPrecision(labels, ranking, positives, j - 1)
      + (if labels[ranking[j - 1]] > 0.0 then TopPrecision(labels, ranking, j) / positives as real else 0.0)
  }

  /** Ranks below the depth hold no relevant item and add nothing. */
  lemma {:induction false} MeanHitPrecisionFlatPastDepth(labels: seq<real>, ranking: seq<nat>, positives: nat, j: nat)
    requires IndicesIn(ranking, |labels|) && positives > 0 && Depth(labels, ranking) <= j <= |ranking|
    ensures MeanHitPrecision(labels, ranking, positives, j)
      == MeanHitPrecision(labels, ranking, positives, Depth(labels, ranking))
    decreases j
  {
    if j > Depth(labels, ranking) {
      MeanHitPrecisionFlatPastDepth(labels, ranking, positives, j - 1);
    }
  }

  lemma HitStep(hits: real, positives: real, prec: real)
    requires positives > 0.0
    ensures (hits / positives - (hits + 1.0) / positives) * prec == -(prec / positives)
  {
    assert hits / positives - (hits + 1.0) / positives == -(1.0 / positives);
  }

  /** Rank k's step of the loop sum, from the point holding the recall `high`
      and precision `prec` of the top k to the point holding the recall `low`
      of the top k-1, is minus rank k's term of the textbook sum. */
  lemma RankStep(labels: seq<real>, ranking: seq<nat>, positives: nat, k: nat, low: real, high: real, prec: real)
    requires IndicesIn(ranking, |labels|) && positives > 0 && 0 < k <= |ranking|
    requires low == TopRecall(labels, ranking, k - 1, positives)
    requires high == TopRecall(labels, ranking, k, positives)
    requires prec == TopPrecision(labels, ranking, k)
    ensures (low - high) * prec
      == MeanHitPrecision(labels, ranking, positives, k - 1) - MeanHitPrecision(labels, ranking, positives, k)
  {
    if labels[ranking[k - 1]] > 0.0 {
      HitStep(HitsAt(labels, ranking, k - 1) as real, positives as real, prec);
    }
  }

  /** The change from entry i to entry i+1 of g. */
  function Change(g: seq<real>, i: nat): real
    requires i + 1 < |g|
  {
    g[i + 1] - g[i]
  }

  /** The loop sum telescopes: when every step is the difference of
      consecutive entries of g, the first t steps sum to g[t] - g[0]. */
  lemma {:induction false} StepSumTelescopes(p: seq<real>, r: seq<real>, g: seq<real>, t: nat)
    requires t <= |p| && t < |r| && t < |g|
    requires forall i :: 0 <= i < t ==> StepAt(p, r, i) == Change(g, i)
    ensures StepSum(p, r, t) == g[t] - g[0]
  {
    if t > 0 {
      StepSumTelescopes(p, r, g, t - 1);
      assert StepAt(p, r, t - 1) == Change(g, t - 1);
    }
  }

  /** The textbook sums of the top m, m-1, ..., 0 items. */
  function TextbookTail(labels: seq<real>, ranking: seq<nat>, positives: nat, m: nat): (g: seq<real>)
    requires m <= |ranking| && IndicesIn(ranking, |labels|) && positives > 0
    ensures |g| == m + 1
    ensures forall i :: 0 <= i <= m ==> g[i] == MeanHitPrecision(labels, ranking, positives, m - i)
  {
    seq(m + 1, i requires 0 <= i <= m => MeanHitPrecision(labels, ranking, positives, m - i))
  }

  /** Entries of p and r hold the precision and recall of the top m, m-1,
      ..., 1 items, and r ends with the anchor's recall 0: the shape of the
      curve points of a ranking. */
  ghost predicate RankedPoints(labels: seq<real>, ranking: seq<nat>, m: nat, positives: nat, p: seq<real>, r: seq<real>)
    requires m <= |ranking| && IndicesIn(ranking, |labels|) && positives > 0
  {
    && |p| == m + 1 && |r| == m + 1
    && (forall i :: 0 <= i < m ==> p[i] == TopPrecision(labels, ranking, m - i))
    && (forall i :: 0 <= i < m ==> r[i] == TopRecall(labels, ranking, m - i, positives))
    && r[m] == 0.0
  }

  /** Around step i of such points: the precision and recall of the top m-i
      items, then the recall of the top m-i-1 (the anchor's 0 when i+1 = m). */
  lemma RankedPointsAround(labels: seq<real>, ranking: seq<nat>, m: nat, positives: nat, p: seq<real>, r: seq<real>, i: nat)
    requires m <= |ranking| && IndicesIn(ranking, |labels|) && positives > 0
    requires RankedPoints(labels, ranking, m, positives, p, r)
    requires i < m
    ensures p[i] == TopPrecision(labels, ranking, m - i)
    ensures r[i] == TopRecall(labels, ranking, m - i, positives)
    ensures r[i + 1] == TopRecall(labels, ranking, m - i - 1, positives)
  {
    if i + 1 == m {
      assert HitsAt(labels, ranking, 0) == 0;
    }
  }

  /** Step i of the loop sum over such points is the matching difference of
      textbook sums. */
  lemma PointStep(labels: seq<real>, ranking: seq<nat>, m: nat, positives: nat, p: seq<real>, r: seq<real>, i: nat)
    requires m <= |ranking| && IndicesIn(ranking, |labels|) && positives > 0
    requires RankedPoints(labels, ranking, m, positives, p, r)
    requires i < m
    ensures StepAt(p, r, i) == Change(TextbookTail(labels, ranking, positives, m), i)
  {
    RankedPointsAround(labels, ranking, m, positives, p, r, i);
    RankStep(labels, ranking, positives, m - i, r[i + 1], r[i], p[i]);
  }

  /** Over such points, the loop sum is minus the textbook sum. */
  lemma RankedStepSum(labels: seq<real>, ranking: seq<nat>, m: nat, positives: nat, p: seq<real>, r: seq<real>)
    requires m <= |ranking| && IndicesIn(ranking, |labels|) && positives > 0
    requires RankedPoints(labels, ranking, m, positives, p, r)
    ensures StepSum(p, r, m) == -MeanHitPrecision(labels, ranking, positives, m)
  {
    var g := TextbookTail(labels, ranking, positives, m);
    forall i | 0 <= i < m
      ensures StepAt(p, r, i) == Change(g, i)
    {
      PointStep(labels, ranking, m, positives, p, r, i);
    }
    StepSumTelescopes(p, r, g, m);
  }

  /** The average precision of the curve of a ranking with at least one
      relevant item is the textbook one. */
  lemma AveragePrecisionOfPoints(labels: seq<real>, ranking: seq<nat>, m: nat, positives: nat, thresholds: seq<real>)
    requires IndicesIn(ranking, |labels|) && positives > 0 && m == Depth(labels, ranking)
    ensures AveragePrecision(Curve(PrecisionPoints(labels, ranking, m), RecallPoints(labels, ranking, m, positives),
        thresholds, positives))
      == Ok(MeanHitPrecision(labels, ranking, positives, |ranking|))
  {
    RankedStepSum(labels, ranking, m, positives, PrecisionPoints(labels, ranking, m), RecallPoints(labels, ranking, m, positives));
    MeanHitPrecisionFlatPastDepth(labels, ranking, positives, |ranking|);
  }

  /** The average precision of the constructed curve is the textbook one: the
      mean, over the relevant items, of the precision of the ranking cut off
      at each relevant item's rank (0 when nothing is relevant). */
  lemma AveragePrecisionOfRanking(predictions: seq<real>, labels: seq<real>, order: seq<nat>)
    requires IsArgsort(predictions, order) && |predictions| == |labels|
    ensures IndicesIn(Reversed(order), |labels|)
    ensures AveragePrecision(RankedCurve(predictions, labels, order).value)
      == Ok(if Positives(labels) == 0 then 0.0
            else MeanHitPrecision(labels, Reversed(order), Positives(labels), |labels|))
  {
    RankedCurveUnfolds(predictions, labels, order);
    var ranking := Reversed(order);
    var m := Depth(labels, ranking);
    var positives := Positives(labels);
    if positives > 0 {
      AveragePrecisionOfPoints(labels, ranking, m, positives, TopThresholds(predictions, order, m));
    } else {
      ReversedPermutation(order, |labels|);
      DepthIsFirstFullRecall(labels, ranking);
      AnchorOnly(predictions, labels, order, ranking);
    }
  }

  lemma AddRatioAtMostOne(a: real, x: real, d: real)
    requires d > 0.0 && x <= 1.0
    ensures a / d + x / d <= (a + 1.0) / d
  {
    assert a / d + x / d == (a + x) / d;
  }

  /** The textbook sum of the top j items is at most their hits over the
      number of relevant items: each term's precision is at most 1. */
  lemma {:induction false} MeanHitPrecisionBelowHits(labels: seq<real>, ranking: seq<nat>, positives: nat, j: nat)
    requires j <= |ranking| && IndicesIn(ranking, |labels|) && positives > 0
    ensures MeanHitPrecision(labels, ranking, positives, j) <= HitsAt(labels, ranking, j) as real / positives as real
  {
    if j > 0 {
      MeanHitPrecisionBelowHits(labels, ranking, positives, j - 1);
      if labels[ranking[j - 1]] > 0.0 {
        Fraction(HitsAt(labels, ranking, j), j);
        AddRatioAtMostOne(HitsAt(labels, ranking, j - 1) as real, TopPrecision(labels, ranking, j), positives as real);
      }
    }
  }

  lemma AddUnitRatio(a: real, d: real)
    requires d > 0.0
    ensures a / d + 1.0 / d == (a + 1.0) / d
  {
  }

  /** When every one of the first j ranks is relevant the textbook sum is j
      over the number of relevant items. */
  lemma {:induction false} MeanHitPrecisionOfFullPrefix(labels: seq<real>, ranking: seq<nat>, positives: nat, j: nat)
    requires j <= |ranking| && IndicesIn(ranking, |labels|) && positives > 0
    requires HitsAt(labels, ranking, j) == j
    ensures MeanHitPrecision(labels, ranking, positives, j) == j as real / positives as real
  {
    if j > 0 {
      assert HitsAt(labels, ranking, j - 1) == j - 1;
      MeanHitPrecisionOfFullPrefix(labels, ranking, positives, j - 1);
      RatioIsOne(j, j);
      AddUnitRatio((j - 1) as real, positives as real);
    }
  }

  lemma LastTermKeepsBelowOne(before: real, prec: real, positives: nat)
    requires positives > 0 && prec < 1.0
    requires before <= (positives - 1) as real / positives as real
    ensures before + prec / positives as real < 1.0
  {
    assert (positives - 1) as real / positives as real + prec / positives as real
      == ((positives - 1) as real + prec) / positives as real;
  }

  /** A ranking whose depth exceeds the number of relevant items has some
      irrelevant item above the last relevant one, and its textbook score
      stays below 1: the last relevant item's precision is below 1 and the
      ones before it add up to at most (R-1)/R. */
  lemma ImperfectRankingBelowOne(labels: seq<real>, ranking: seq<nat>)
    requires IsPermutation(ranking, |labels|) && Positives(labels) > 0
    requires Depth(labels, ranking) != Positives(labels)
    ensures MeanHitPrecision(labels, ranking, Positives(labels), Depth(labels, ranking)) < 1.0
  {
    DepthIsFirstFullRecall(labels, ranking);
    var m := Depth(labels, ranking);
    var positives := Positives(labels);
    assert HitsAt(labels, ranking, m - 1) == positives - 1;
    MeanHitPrecisionBelowHits(labels, ranking, positives, m - 1);
    FractionBelowOne(positives, m);
    LastTermKeepsBelowOne(MeanHitPrecision(labels, ranking, positives, m - 1), TopPrecision(labels, ranking, m), positives);
  }

  /** The textbook average precision of a ranking is 1 exactly when the
      depth equals the number of relevant items, that is when every relevant
      item is ranked above every other one. */
  lemma TextbookScoreOneIffPerfect(labels: seq<real>, ranking: seq<nat>)
    requires IsPermutation(ranking, |labels|) && Positives(labels) > 0
    ensures MeanHitPrecision(labels, ranking, Positives(labels), |ranking|) == 1.0
        <==> Depth(labels, ranking) == Positives(labels)
  {
    DepthIsFirstFullRecall(labels, ranking);
    MeanHitPrecisionFlatPastDepth(labels, ranking, Positives(labels), |labels|);
    if Depth(labels, ranking) == Positives(labels) {
      MeanHitPrecisionOfFullPrefix(labels, ranking, Positives(labels), Positives(labels));
      RatioIsOne(Positives(labels), Positives(labels));
    } else {
      ImperfectRankingBelowOne(labels, ranking);
    }
  }

  /** Average precision is 1 exactly when the ranking puts every relevant item
      above every other one. */
  lemma PerfectRankingIffAveragePrecisionOne(predictions: seq<real>, labels: seq<real>, order: seq<nat>)
    requires IsArgsort(predictions, order) && |predictions| == |labels|
    requires Positives(labels) > 0
    ensures AveragePrecision(RankedCurve(predictions, labels, order).value) == Ok(1.0)
        <==> Depth(labels, Reversed(order)) == Positives(labels)
  {
    AveragePrecisionOfRanking(predictions, labels, order);
    ReversedPermutation(order, |labels|);
    TextbookScoreOneIffPerfect(labels, Reversed(order));
  }

  // ---------------------------------------------------------------------------
  // Interpolated precision

  /** The largest precision among the first n points whose recall is at least
      r, or 0 when there is none. */
  function BestPrecision(precision: seq<real>, recall: seq<real>, r: real, n: nat): (best: real)
    requires n <= |recall| && n <= |precision|
    ensures best >= 0.0
    ensures forall i :: 0 <= i < n && recall[i] >= r ==> precision[i] <= best
    ensures best == 0.0 || exists i :: 0 <= i < n && recall[i] >= r && precision[i] == best
  {
    if n == 0 then 0.0
    else
      var best := BestPrecision(precision, recall, r, n - 1);
      if recall[n - 1] >= r && precision[n - 1] > best then precision[n - 1] else best
  }

  /** Some point at or past the end of the precisions has recall at least r,
      so the Go loop would index past the precisions. */
  predicate RecallPastPrecision(c: Curve, r: real) {
    exists i :: |c.precision| <= i < |c.recall| && c.recall[i] >= r
  }

  /** The maximum precision over all points whose recall is at least r (the
      comparison is `>=`), or 0 when no point qualifies. */
  function InterpolatedPrecisionAt(c: Curve, r: real): (p: Result<real>)
    ensures p.Err? <==> RecallPastPrecision(c, r)
    ensures p.Err? ==> p.fault == IndexOutOfRange
    ensures p.Ok? ==> p.value >= 0.0
    ensures p.Ok? ==> forall i :: 0 <= i < |c.recall| && c.recall[i] >= r ==> c.precision[i] <= p.value
    ensures p.Ok? ==> p.value == 0.0 || exists i :: 0 <= i < |c.recall| && c.recall[i] >= r && c.precision[i] == p.value
  {
    if RecallPastPrecision(c, r) then Err(IndexOutOfRange)
    else
      if |c.recall| <= |c.precision| then Ok(BestPrecision(c.precision, c.recall, r, |c.recall|))
      else
        // every point past the precisions has recall below r, so only the
        // first |precision| points can qualify
        Ok(BestPrecision(c.precision, c.recall, r, |c.precision|))
  }

  /** A higher recall level never gives a higher interpolated precision. */
  lemma InterpolatedPrecisionFalls(c: Curve, low: real, high: real)
    requires low <= high
    requires InterpolatedPrecisionAt(c, low).Ok?
    ensures InterpolatedPrecisionAt(c, high).Ok?
    ensures InterpolatedPrecisionAt(c, high).value <= InterpolatedPrecisionAt(c, low).value
  {
  }

  /** On a valid curve interpolated precision is defined at every level, lies
      in [0, 1], is 1 at every level up to 0 (the anchor qualifies) and 0
      above 1 (no recall exceeds 1). */
  lemma InterpolatedPrecisionOfValidCurve(c: Curve, r: real)
    requires ValidCurve(c)
    ensures InterpolatedPrecisionAt(c, r).Ok?
    ensures 0.0 <= InterpolatedPrecisionAt(c, r).value <= 1.0
    ensures r <= 0.0 ==> InterpolatedPrecisionAt(c, r).value == 1.0
    ensures r > 1.0 ==> InterpolatedPrecisionAt(c, r).value == 0.0
  {
    var last := |c.precision| - 1;
    if r <= 0.0 {
      assert c.recall[last] >= r;
    }
  }

  /** Recall level i of the eleven-point average: i/10. */
  function Level(i: nat): real {
    i as real / 10.0
  }

  /** The sum of the interpolated precisions at recall levels 0, 0.1, ...,
      (levels-1)/10. */
  function InterpolatedSum(c: Curve, levels: nat): (s: Result<real>)
    ensures s.Err? <==> exists i :: 0 <= i < levels && InterpolatedPrecisionAt(c, Level(i)).Err?
  {
    if levels == 0 then Ok(0.0)
    else
      var before := InterpolatedSum(c, levels - 1);
      var here := InterpolatedPrecisionAt(c, Level(levels - 1));
      if before.Err? then before
      else if here.Err? then here
      else Ok(before.value + here.value)
  }

  /** One more level adds its interpolated precision to the sum. */
  lemma InterpolatedSumStep(c: Curve, levels: nat)
    requires levels > 0
    requires InterpolatedSum(c, levels - 1).Ok? && InterpolatedPrecisionAt(c, Level(levels - 1)).Ok?
    ensures InterpolatedSum(c, levels)
      == Ok(InterpolatedSum(c, levels - 1).value + InterpolatedPrecisionAt(c, Level(levels - 1)).value)
  {
  }

  /** The mean interpolated precision over the eleven recall levels 0, 0.1,
      ..., 1. */
  function AverageInterpolatedPrecision(c: Curve): (aip: Result<real>)
    ensures aip.Err? <==> exists i :: 0 <= i <= 10 && InterpolatedPrecisionAt(c, Level(i)).Err?
  {
    var s := InterpolatedSum(c, 11);
    if s.Err? then s else Ok(s.value / 11.0)
  }

  lemma {:induction false} InterpolatedSumBounds(c: Curve, levels: nat)
    requires ValidCurve(c) && levels <= 11
    ensures InterpolatedSum(c, levels).Ok?
    ensures 0.0 <= InterpolatedSum(c, levels).value <= levels as real
    ensures levels > 0 ==> InterpolatedSum(c, levels).value >= 1.0
  {
    if levels > 0 {
      InterpolatedSumBounds(c, levels - 1);
      InterpolatedPrecisionOfValidCurve(c, Level(levels - 1));
      InterpolatedSumStep(c, levels);
    }
  }

  /** On a valid curve the 11-point average lies in [1/11, 1]: the level 0
      always contributes the anchor's precision 1. */
  lemma AverageInterpolatedPrecisionBounds(c: Curve)
    requires ValidCurve(c)
    ensures AverageInterpolatedPrecision(c).Ok?
    ensures 1.0 / 11.0 <= AverageInterpolatedPrecision(c).value <= 1.0
  {
    InterpolatedSumBounds(c, 11);
  }

  /** The anchor-only curve of a ranking with nothing relevant averages to
      1/11: precision 1 at level 0 and 0 at every positive level. */
  lemma AnchorOnlyInterpolatedAverage()
    ensures AverageInterpolatedPrecision(Curve([1.0], [0.0], [], 0)) == Ok(1.0 / 11.0)
  {
    var c := Curve([1.0], [0.0], [], 0);
    forall i | 1 <= i <= 10
      ensures InterpolatedPrecisionAt(c, Level(i)) == Ok(0.0)
    {
      assert Level(i) > 0.0;
    }
    assert InterpolatedPrecisionAt(c, 0.0) == Ok(1.0);
    assert InterpolatedSum(c, 1) == Ok(1.0);
    assert InterpolatedSum(c, 11) == Ok(1.0);
  }

  // ---------------------------------------------------------------------------
  // Precision at a cut-off

  /** The precision point `positives` places before the anchor. On a valid
      curve that index always exists, so R-precision never fails there and is
      a proportion. */
  function RPrecision(c: Curve): (p: Result<real>)
    ensures p.Ok? <==> c.positives < |c.precision|
    ensures p.Ok? ==> p.value == c.precision[|c.precision| - 1 - c.positives]
    ensures p.Err? ==> p.fault == IndexOutOfRange
    ensures ValidCurve(c) ==> p.Ok? && 0.0 <= p.value <= 1.0
  {
    if c.positives < |c.precision| then Ok(c.precision[|c.precision| - 1 - c.positives])
    else Err(IndexOutOfRange)
  }

  /** The precision point k places before the anchor. On a valid curve the
      cut-off 0 reads the anchor, so it is 1, and every defined value is a
      proportion. */
  function PrecisionAt(c: Curve, k: int): (p: Result<real>)
    ensures p.Ok? <==> 0 <= k < |c.precision|
    ensures p.Ok? ==> p.value == c.precision[|c.precision| - 1 - k]
    ensures p.Err? ==> p.fault == IndexOutOfRange
    ensures ValidCurve(c) && k == 0 ==> p == Ok(1.0)
    ensures ValidCurve(c) && p.Ok? ==> 0.0 <= p.value <= 1.0
  {
    if 0 <= k < |c.precision| then Ok(c.precision[|c.precision| - 1 - k]) else Err(IndexOutOfRange)
  }

  /** On the constructed curve, precision at k is the fraction of relevant
      items among the k highest predictions for every k from 1 to the depth,
      1 at k = 0 (the anchor), and an index panic at any other k, including
      cut-offs past the depth. */
  lemma PrecisionAtOfRanking(predictions: seq<real>, labels: seq<real>, order: seq<nat>, k: int)
    requires IsArgsort(predictions, order) && |predictions| == |labels|
    ensures IndicesIn(Reversed(order), |labels|)
    ensures var m := Depth(labels, Reversed(order));
      PrecisionAt(RankedCurve(predictions, labels, order).value, k)
      == if k == 0 then Ok(1.0)
         else if 1 <= k <= m then Ok(HitsAt(labels, Reversed(order), k) as real / k as real)
         else Err(IndexOutOfRange)
  {
    RankedCurveUnfolds(predictions, labels, order);
    var m := Depth(labels, Reversed(order));
    var p := PrecisionPoints(labels, Reversed(order), m);
    assert |p| == m + 1;
    if k == 0 {
      assert p[m] == 1.0;
    } else if 1 <= k <= m {
      assert p[m - k] == TopPrecision(labels, Reversed(order), k);
    }
  }

  /** On the constructed curve, R-precision is the fraction of relevant items
      among the top R, where R is the number of relevant items (1 when there
      are none). */
  lemma RPrecisionOfRanking(predictions: seq<real>, labels: seq<real>, order: seq<nat>)
    requires IsArgsort(predictions, order) && |predictions| == |labels|
    ensures IndicesIn(Reversed(order), |labels|) && Positives(labels) <= |labels|
    ensures RPrecision(RankedCurve(predictions, labels, order).value)
      == if Positives(labels) == 0 then Ok(1.0)
         else Ok(HitsAt(labels, Reversed(order), Positives(labels)) as real / Positives(labels) as real)
  {
    ReversedPermutation(order, |labels|);
    DepthIsFirstFullRecall(labels, Reversed(order));
    PrecisionAtOfRanking(predictions, labels, order, Positives(labels));
  }
}
